=== FILE: README.md ===
# Fixture loader model

A Dafny model of the core of a declarative test-fixture loader, in two parts:

- **The fixtures manager** (`charlatan/fixtures_manager.py`). It resolves a parsed fixture file into keyed definitions: batch entries expand to `name_0 … name_{N-1}`, and named entries have `id` renamed to `id_`. It memoises one instance per key until `clean_cache`, keeps one hook per allowed lifecycle name, and installs instances through the session as before-install hook → add → commit → after-install hook.
- **The fixture record** (`ciarlare/fixture.py`). This covers:
  - constructor validation;
  - the attribute-inheritance merge from a parent record;
  - the `(module, class)` candidates a model name resolves to;
  - relationship-name parsing and dependency extraction;
  - relationship-token substitution in field values;
  - assembly of the parameters an instance is built from.

Modules:

| module | file | contents |
|---|---|---|
| `Results` | results.dfy | `Option` and `Result`; `Err` stands for the exception the source raises |
| `Strings` | strings.dfy | `str(i)` for naturals, `split`/`join` on one character, `endswith`, ASCII `lower` |
| `Values` | values.dfy | the dynamic `Value` tree of a parsed file and Python truthiness |
| `FixtureRecord` | fixture.dfy | the fixture record |
| `FixturesManager` | manager.dfy | the manager |

The manager is an immutable state record `Manager(config, fixtures, cache, hooks, nextId)`. Each operation returns a `Run`: the new state, the side effects it caused (hook calls, session add and session commit, in order), and either a value or an error. Effects made before an exception are kept, as in the source. Instances are opaque identities drawn from `nextId`, so "the same instance" can be stated.

Building an instance is the abstract parameter `build`. The manager calls `get_instance(include_relationships=…)` on a record class that is not part of this model. The `ciarlare` record's `get_instance` no longer takes that argument, so the two parts are not wired together.

Value semantics replace Python's in-place mutation. A function that "updates" a record or list returns the new value. The source deep-copies `fields` before processing the parameters (ciarlare/fixture.py:158), so parameter processing never changes the record's fields. That part matches the model. Inheritance, however, does change the record in place in the source; see `FixtureRecord.GetInstance` under "## Left out".

Behaviour of the code worth noting:

- `get_fixture` reuses a cached instance only when it is truthy (`if not self.cache.get(key)`). A falsy cached value is rebuilt (`FixturesManager.FalsyCachedInstanceIsRebuilt`).
- A batch entry with at least one object also needs `model`, because `v["model"]` is read in the loop. A batch with an empty `objects` list produces no keys and needs no `model`.
- Relationship substitution descends into lists only. A mapping-valued field is returned unchanged, tokens and all.

## Model

| member | source | states |
|---|---|---|
| `FixturesManager.NewManager` | charlatan/fixtures_manager.py:43-44 | a new manager has an empty hook table, nothing loaded and no cache, and satisfies the state invariant |
| `FixturesManager.LoadFile` | charlatan/fixtures_manager.py:29-36 | a file is accepted exactly when its name ends in `.yaml`; any other name fails with the unsupported-filetype error naming the file |
| `FixturesManager.BatchKeyInjective` | charlatan/fixtures_manager.py:84 | distinct object indices of one batch give distinct keys |
| `FixturesManager.BatchDefinitionsSpec` | charlatan/fixtures_manager.py:80-86 | a batch with N objects defines exactly the keys `name_0 … name_{N-1}`, and key `name_i` carries the entry's model and the i-th object as its fields |
| `FixturesManager.RenameId` | charlatan/fixtures_manager.py:90-93 | `id` is removed and its value appears under `id_`; every other argument is unchanged; an entry without `id` is unchanged |
| `FixturesManager.ResolveEntry` | charlatan/fixtures_manager.py:77-98 | an entry resolves exactly when it is well formed (list `objects` with a `model` unless empty; a named entry with `model` and no repeated constructor argument); it adds exactly its keys and keeps every other definition; batch keys carry model and object; a named key carries the renamed arguments; on success the result is the accumulator updated with exactly the entry's definitions |
| `FixturesManager.BatchEntryHasNoOwnKey` | charlatan/fixtures_manager.py:80-86 | a batch entry never creates a definition under its own name |
| `FixturesManager.ResolveAll` | charlatan/fixtures_manager.py:76-100 | the resolved keys are exactly the keys every entry contributes, and the resolved map is the accumulator updated with each entry's definitions in file order |
| `FixturesManager.ResolutionSucceeds` | charlatan/fixtures_manager.py:76-100 | the whole file resolves exactly when every one of its entries does |
| `FixturesManager.ResolveAllDefinitions` | charlatan/fixtures_manager.py:76-100 | when every entry resolves, resolution succeeds with each entry's definitions applied in file order |
| `FixturesManager.LastEntryWins` | charlatan/fixtures_manager.py:77-98 | a key carries the definition of the last entry that contributes it, since each assignment into the result map overwrites an earlier one |
| `FixturesManager.UncontributedKeyKept` | charlatan/fixtures_manager.py:77-98 | a key no entry contributes keeps the definition it already had |
| `FixturesManager.MissingModelAbortsResolution` | charlatan/fixtures_manager.py:95-96 | a named entry without `model` anywhere in the file fails the whole resolution |
| `FixturesManager.LoadFixtures` | charlatan/fixtures_manager.py:68-100 | a successful load read a `.yaml` file; the result holds exactly the keys the entries contribute, each with the definitions applied in file order; a `.yaml` file whose entries all resolve loads |
| `FixturesManager.LoadedKeyDefinition` | charlatan/fixtures_manager.py:68-100 | after a successful load, each key maps to the definition of the last entry contributing it: its batch object with the entry's model, or its named arguments with `id` renamed |
| `FixturesManager.Load` | charlatan/fixtures_manager.py:46-66 | the configuration is stored first; success replaces the definitions and empties the cache; failure keeps the definitions and cache of before; hooks are untouched; the state invariant is preserved |
| `FixturesManager.LoadMissingModelKeepsState` | charlatan/fixtures_manager.py:58-63 | when a named entry lacks `model`, `load` fails with the new configuration stored but the old definitions and cache intact |
| `FixturesManager.CleanCache` | charlatan/fixtures_manager.py:102-104 | the cache becomes empty and nothing else changes |
| `FixturesManager.GetFixture` | charlatan/fixtures_manager.py:170-192 | an unknown key fails and changes nothing; a truthy cached instance is returned without rebuilding; otherwise `build` is called on the key's definition: the call succeeds exactly when the build does, the new instance has the truthiness the build reported, and it is stored under the key; a raising build fails with the build error; setup and truthy cache entries are kept |
| `FixturesManager.GetFixtures` | charlatan/fixtures_manager.py:194-203 | one instance per key on success; setup and truthy cache entries are kept |
| `FixturesManager.GetFixturesMatchCache` | charlatan/fixtures_manager.py:203 | the i-th result, when truthy, is the instance cached for the i-th key afterwards: results come in key order, and repeated keys share an instance |
| `FixturesManager.GetFixturesUnknownKey` | charlatan/fixtures_manager.py:180-181 | an unresolved key anywhere in the list fails `get_fixtures` |
| `FixturesManager.FalsyCachedInstanceIsRebuilt` | charlatan/fixtures_manager.py:185-189 | a falsy cached value is not handed out again; a new instance replaces it |
| `FixturesManager.CleanCacheForcesRebuild` | charlatan/fixtures_manager.py:102-104 | after `clean_cache` the next `get_fixture` returns an instance distinct from every instance cached before |
| `FixturesManager.GetHook` | charlatan/fixtures_manager.py:205-211 | a registered name gives its callable; any other name gives the no-op |
| `FixturesManager.SetHook` | charlatan/fixtures_manager.py:213-223 | a name outside the four allowed names fails and changes nothing; an allowed name now yields the new callable, overwriting any earlier one; other names are unaffected |
| `FixturesManager.OpsKeepAllowedHooks` | charlatan/fixtures_manager.py:213-223 | whatever sequence of manager operations runs, the hook table only ever holds the four allowed names |
| `FixturesManager.InstallFixture` | charlatan/fixtures_manager.py:106-128 | the result and state are those of `get_fixture`; without `do_not_save` the trace is exactly before-install hook, add, commit, after-install hook on that instance; with `do_not_save` it is empty |
| `FixturesManager.Normalize` | charlatan/fixtures_manager.py:143-144 | a single key becomes the one-key sequence; a sequence is used as given |
| `FixturesManager.InstallEach` | charlatan/fixtures_manager.py:146-153 | with a loaded configuration, the instances and the state are exactly those `get_fixtures` gives for the same keys, so result i is the instance of key i; the trace is the concatenation of each installation's events in key order |
| `FixturesManager.InstallFixtures` | charlatan/fixtures_manager.py:130-153 | with a loaded configuration, the instances and the state are those `get_fixtures` gives for the normalised keys; one instance per key, with the installation events in key order |
| `FixturesManager.InstallFixturesInKeyOrder` | charlatan/fixtures_manager.py:140-153 | the instances come back in key order: each truthy i-th result is the instance cached for the i-th key |
| `FixturesManager.InstallSingleKey` | charlatan/fixtures_manager.py:143-151 | installing a single key gives the one-element list of what `install_fixture` gives, with the same state and trace |
| `FixturesManager.InstallEachKeepsEarlierEffects` | charlatan/fixtures_manager.py:147-151 | no rollback: the first installation's side effects stay at the head of the trace even when a later key fails |
| `FixturesManager.InstallEachSucceeds` | charlatan/fixtures_manager.py:146-153 | on a loaded manager whose records always build, installing resolved keys succeeds |
| `FixturesManager.InstallAllFixtures` | charlatan/fixtures_manager.py:155-168 | installs every resolved key once, in one iteration order of the definitions, so one instance per resolved key comes back |
| `FixturesManager.OpsKeepCache` | charlatan/fixtures_manager.py:185-192 | operations other than `load` and `clean_cache` keep every truthy cached instance and the definitions |
| `FixturesManager.CachedInstanceIsReused` | charlatan/fixtures_manager.py:185-192 | once a truthy instance is cached, later `get_fixture` calls of that key return that same instance, whatever the `include_relationships` flags, until the cache is cleaned or reloaded |
| `FixturesManager.ResolveNamedThenBatch` | charlatan/fixtures_manager.py:77-98 | a named entry followed by a batch resolves to the named key plus the batch keys, with the named arguments and the per-object fields |
| `FixturesManager.ExampleResolution` | charlatan/fixtures_manager.py:77-98 | the file with `simple` and a two-object `group` resolves to `simple`, `group_0`, `group_1`; `simple` carries its `fields` mapping (`field1: lolin`, `field2: 2`) as a constructor argument, and `group_1` has the second object as its fields |
| `FixtureRecord.NewFixture` | ciarlare/fixture.py:83-127 | construction fails exactly when both `id_` and `fields` are truthy; otherwise falsy `fields` and `post_creation` become empty mappings, and every other attribute keeps its argument |
| `FixtureRecord.InheritedValue` | ciarlare/fixture.py:53-77 | an empty child takes the parent's value; a string child keeps its own; a mapping child is laid over the parent's mapping, child winning; a falsy outcome is never assigned; a non-mapping parent under a mapping child fails |
| `FixtureRecord.MergedIdempotent` | ciarlare/fixture.py:53-77 | merging the same parent value again changes nothing (shallow mode) |
| `FixtureRecord.ApplyParent` | ciarlare/fixture.py:44-45 | every inheritable attribute becomes its merged value; it succeeds exactly when all five merges succeed; key, id, `inherit_from` and `deep_inherit` are untouched |
| `FixtureRecord.InheritFromParent` | ciarlare/fixture.py:38-51 | no `inherit_from` means nothing changes; a missing parent fails; otherwise the parent inherits first and its values are applied; non-inheritable attributes are kept |
| `FixtureRecord.ApplyParentIdempotent` | ciarlare/fixture.py:44-45 | applying the same parent twice is applying it once (shallow mode) |
| `FixtureRecord.InheritTwiceIsHarmless` | ciarlare/fixture.py:31-45 | since the "already inherited" flag is never set, inheritance is redone on every call, and a second pass leaves the record as the first left it (shallow mode) |
| `FixtureRecord.ClassCandidates` | ciarlare/fixture.py:192-219 | an empty model gives no class; `.m:C` gives the package plus `.m` and `C`; `m:C` gives `m` and `C`; bare `C` gives the package plus `.` and lowercased `C`, then the package alone; a path without exactly one `:` fails |
| `FixtureRecord.ExtractRelName` | ciarlare/fixture.py:221-231 | a name without `.` gives itself and no attribute; a dotted name gives its first two components, which reconstruct its start, and exactly the whole name when there is one dot |
| `FixtureRecord.DependencyRelationships` | ciarlare/fixture.py:244-245 | each `depend_on` entry yields itself with no attribute, in order |
| `FixtureRecord.ExtractRelationships` | ciarlare/fixture.py:233-256 | the dependencies first, then the relationships of the fields in some enumeration of their keys; non-list `depend_on` or non-mapping `fields` fail |
| `FixtureRecord.ItemRelationshipsMembership` | ciarlare/fixture.py:253-256 | a relationship is extracted from a list exactly when some item of the list is a token naming it |
| `FixtureRecord.FieldsRelationshipsMembership` | ciarlare/fixture.py:247-256 | whatever the field order, a relationship is extracted exactly when some field contributes it |
| `FixtureRecord.NestedTokensNotExtracted` | ciarlare/fixture.py:253-256 | extraction descends exactly one level into lists: a token two lists deep is not extracted |
| `FixtureRecord.ProcessField` | ciarlare/fixture.py:258-278 | a token becomes the fixture it names; a list keeps its length and item i becomes the substituted item i; any other value is unchanged |
| `FixtureRecord.ProcessFieldWithoutTokens` | ciarlare/fixture.py:268-278 | a value with no token at any list depth is left unchanged |
| `FixtureRecord.ProcessFieldRemovesTokens` | ciarlare/fixture.py:268-278 | when the looked-up fixtures hold no tokens, no token survives substitution at any list depth |
| `FixtureRecord.ProcessFieldIdempotent` | ciarlare/fixture.py:258-278 | substituting twice is substituting once, when looked-up fixtures hold no tokens |
| `FixtureRecord.NestedListSubstitution` | ciarlare/tests/test_relationships_without_models.py:24-33 | tokens two lists deep are replaced by the fixtures they name |
| `FixtureRecord.ProcessRelationships` | ciarlare/fixture.py:280-298 | a mapping keeps its keys and a list its length, and each value or item is substituted; any other container fails |
| `FixtureRecord.ProcessRelationshipsWithoutTokens` | ciarlare/fixture.py:292-298 | a mapping or list without tokens is left unchanged |
| `FixtureRecord.ProcessRelationshipsIdempotent` | ciarlare/fixture.py:280-298 | substituting the parameters twice is substituting them once, when looked-up fixtures hold no tokens |
| `FixtureRecord.BuildParams` | ciarlare/fixture.py:156-171 | mapping fields: keys are those of the fields and overrides, override keys win, every value is the callable's result when callable, then substituted; list fields: item i is the called and substituted item i; overrides on a list, or fields that are neither, fail |
| `FixtureRecord.BuildParamsOfInertMappings` | ciarlare/fixture.py:156-171 | with no callables or tokens, the parameters are exactly the fields with the overrides laid over them |
| `FixtureRecord.PostCreationAssignments` | ciarlare/fixture.py:181-185 | one assignment per post-creation key; a token is replaced by the fixture it names, other values are kept |
| `FixtureRecord.GetInstance` | ciarlare/fixture.py:149-185 | it runs on the inherited record; with an id it is the database row with the class candidates and assignments; otherwise, when parameters, candidates and assignments all succeed, it is the model instance built from them, or with no model the parameters themselves, failing only when post-creation attributes would be set on them; any failing step fails it |
| `FixtureRecord.PlainInstanceIsItsFields` | ciarlare/fixture.py:156-178 | a record with no parent, id, model or post-creation attributes and inert mapping fields and overrides is exactly the fields overlaid by the overrides |
| `FixtureRecord.ListOfRelationships` | ciarlare/tests/test_relationships_without_models.py:20-22 | a model-less record whose fields are a list of two tokens is the list of the two fixtures they name |

## Left out

- Reading the file and the YAML parser with its custom tags are the parameter `parse`, because they are I/O and an external library. `parse` is consulted only for `.yaml` names. The source opens and reads the file before it checks the suffix (charlatan/fixtures_manager.py:26-29), so a missing or unreadable file raises `IOError` even when its name is not `.yaml`. That I/O failure is not modelled: a name without the suffix always gives the unsupported-filetype error. The parsed top level is a sequence of `(name, mapping)` pairs in the mapping's iteration order. A top-level value that is not a mapping is not modelled.
- The charlatan record class the manager constructs is not part of this model. A resolved definition is its key plus the keyword arguments the constructor would receive. Unknown keyword arguments, which raise `TypeError` there, are not checked. A repeated `key` or `fixture_manager` argument is an error.
- Building an instance is the abstract parameter `build`. That includes the relationships it resolves through `get_fixture`, so cache entries a build adds for other keys are not modelled.
- Exceptions raised by hook callables, `session.add` and `session.commit` are not modelled. The trace records the calls, and each call is assumed to return.
- `importlib` and the `ImportError` fallback in `get_class` are foreign calls. The model produces only the ordered `(module, class)` candidates.
- `session.get` for a database id, the `builder` callable, `richgetter` path access and `setattr` are external collaborators. The model records the inputs they would receive (`FromDatabase`, `FromModel`, `Plain` and the assignments).
- `FixtureRecord.InheritedValue`: deep mode (`deep_inherit`) uses `deep_update`, which is not part of this model. It is a parameter, and its result is not constrained.
- The parent lookup through `fixture_manager.collection` is the parameter `collection`.
- A looping `inherit_from` chain, on which the source recurses until `RecursionError`, is reported as `InheritanceCycle`.
- The model does not mutate the parent record in the collection when it inherits. Only the child's result is computed.
- `FixtureRecord.GetInstance`: does not return the inherited record. In the source, `inherit_from_parent` overwrites the record's own `fields`, `post_creation`, `depend_on`, `model_name` and `models_package` in place (ciarlare/fixture.py:44-45), and a later `extract_relationships` on the same record sees those values. Here the record is left as it was. A later `get_instance` is unaffected when every record in the chain is shallow: `FixtureRecord.InheritTwiceIsHarmless` proves that inheriting again from the already inherited record changes nothing. The model never mutates parents, so it does not cover chains that use deep inheritance.
- When an inheritance merge raises part-way through, attributes the source had already assigned are not kept. The whole operation fails.
- Tuples are not modelled. In-place assignment into a tuple raises `TypeError` in the source. Lists are the only sequences.
- The identity of the list updated in place ("the same list is returned") is not modelled: values have no identity.
- `FixtureRecord.ClassCandidates`: a non-string `models_package` is an error here, where `str.format` would render it. Lowercasing covers ASCII letters only.
- `FixturesManagerMixin` and the `FIXTURES_MANAGER` singleton are an adapter for test cases around the manager.
- The `path` argument of `get_instance` is not modelled, because it is `richgetter` access.
- The `before_save` and `after_save` hooks can be registered but are never called by the code modelled here.
- `FixtureRecord.ExtractRelationships`: the order of the fields is returned as `order`, because the mapping's iteration order is not fixed by the source.
- `FixturesManager.InstallAllFixtures`: the order of the keys is returned as `order`, for the same reason.
- `FixturesManager.ResolveEntry`: `objects` that is a mapping or a string is an error here. The source iterates any iterable, so a mapping would give one key per mapping key and a string one key per character. Other non-list values raise in the source too.
- `FixtureRecord.BuildParams`: callables among the items of list fields are called here as they are for mapping fields. `safe_iteritems`, which decides this in the source, is not part of this model.
- `FixtureRecord.BuildParams`: truthy overrides that are not a mapping are an error here. Python's `dict.update` would also accept a sequence of pairs.
- `FixtureRecord.ExtractRelationships`: a `depend_on` that is not a list, and `fields` that are not a mapping, are errors here. The source would iterate any iterable.

=== FILE: fixture.dfy ===
/**
 * One fixture record: its constructor checks, attribute inheritance from a
 * parent record, resolution of the model name into importable
 * `(module, class)` candidates, relationship extraction and substitution,
 * and the assembly of the parameters an instance is built from.
 *
 * Python's in-place mutation becomes value semantics here: every function
 * returns the updated record or value, so the deep copies the source makes
 * to protect a record's own `fields` are implicit.
 */
module FixtureRecord {
  import opened Results
  import opened Values
  import Strings

  /** The attributes a child record may take from its parent. */
  const CanBeInherited: set<string> :=
    {"model_name", "models_package", "fields", "post_creation", "depend_on"}

  datatype Error =
    | IdAndFields                        // both `id_` and `fields` given
    | NoParent(name: string)             // `inherit_from` names no record
    | InheritanceCycle(name: string)     // the `inherit_from` chain loops
    | NotMergeable(parent: Value)        // the parent value has no `update`
    | BadModelPath(model: string)        // `split(":")` does not give two parts
    | Unexpected(attribute: string)      // a value of a shape the source cannot use
    | AttributeOnPlainInstance           // post-creation attributes on a plain dict

  /**
   * A fixture record. The five inheritable attributes keep whatever value
   * the definition gave them, as the source does; `inheritFrom` and
   * `deepInherit` steer inheritance, `databaseId` selects a row to fetch
   * instead of building an instance.
   */
  datatype Fixture = Fixture(
    key: string,
    databaseId: Value,
    inheritFrom: Value,
    deepInherit: bool,
    modelName: Value,
    modelsPackage: Value,
    fields: Value,
    postCreation: Value,
    dependOn: Value)

  /** Python's `x or {}`. */
  function OrEmpty(v: Value): Value {
    if Truthy(v) then v else Dict(map[])
  }

  /**
   * The constructor. A record may give a database id or fields but not
   * both; absent fields and post-creation assignments become empty
   * mappings. The default `depend_on` (an empty frozenset) is an empty list.
   */
  function NewFixture(
    key: string,
    model: Value := Null,
    fields: Value := Null,
    inheritFrom: Value := Null,
    deepInherit: bool := false,
    postCreation: Value := Null,
    id: Value := Null,
    modelsPackage: Value := Str(""),
    dependOn: Value := List([])
  ): (r: Result<Fixture, Error>)
    ensures r.Err? <==> Truthy(id) && Truthy(fields)
    ensures r.Err? ==> r.error == IdAndFields
    ensures r.Ok? ==> r.value.key == key && r.value.databaseId == id
    ensures r.Ok? ==> r.value.modelName == model && r.value.modelsPackage == modelsPackage
    ensures r.Ok? ==> r.value.inheritFrom == inheritFrom && r.value.dependOn == dependOn
    ensures r.Ok? ==> r.value.deepInherit == deepInherit
    ensures r.Ok? && Truthy(fields) ==> r.value.fields == fields
    ensures r.Ok? && !Truthy(fields) ==> r.value.fields == Dict(map[])
    ensures r.Ok? && Truthy(postCreation) ==> r.value.postCreation == postCreation
    ensures r.Ok? && !Truthy(postCreation) ==> r.value.postCreation == Dict(map[])
  {
    if Truthy(id) && Truthy(fields) then Err(IdAndFields)
    else
      Ok(Fixture(key, id, inheritFrom, deepInherit, model, modelsPackage,
                 OrEmpty(fields), OrEmpty(postCreation), dependOn))
  }

  // ---------------------------------------------------------------------
  // Inheritance
  // ---------------------------------------------------------------------

  /**
   * The value a child takes for one inheritable attribute, or `None` when
   * nothing is inherited: an empty child value takes the parent's value, a
   * string keeps its own, a mapping is laid over the parent's mapping (by
   * `deepUpdate` in deep mode), any other value is kept. A falsy outcome
   * is never assigned.
   */
  function InheritedValue(child: Value, parent: Value, deep: bool,
                          deepUpdate: (Value, Value) -> Value): (r: Result<Option<Value>, Error>)
    ensures r.Ok? && r.value.Some? ==> Truthy(r.value.value)
    ensures r.Err? <==> Truthy(child) && child.Dict? && !deep && !parent.Dict?
    ensures !Truthy(child) ==> r == Ok(if Truthy(parent) then Some(parent) else None)
    ensures Truthy(child) && !child.Dict? ==> r == Ok(None)
    ensures Truthy(child) && child.Dict? && !deep && parent.Dict? ==>
      && r.Ok? && r.value.Some? && r.value.value.Dict?
      && r.value.value.entries.Keys == parent.entries.Keys + child.entries.Keys
      && (forall k :: k in child.entries ==> r.value.value.entries[k] == child.entries[k])
      && (forall k :: k in parent.entries && k !in child.entries ==>
            r.value.value.entries[k] == parent.entries[k])
  {
    if !Truthy(child) then
      Ok(if Truthy(parent) then Some(parent) else None)
    else if AsString(child).Some? then
      Ok(None)
    else if child.Dict? then
      if deep then
        var merged := deepUpdate(parent, child);
        Ok(if Truthy(merged) then Some(merged) else None)
      else if !parent.Dict? then
        Err(NotMergeable(parent))
      else
        var merged := Dict(parent.entries + child.entries);
        Ok(Some(merged))
    else
      Ok(None)
  }

  /** The attribute value after inheritance: the inherited value when there is one. */
  function Merged(child: Value, parent: Value, deep: bool,
                  deepUpdate: (Value, Value) -> Value): Result<Value, Error>
  {
    var inherited :- InheritedValue(child, parent, deep, deepUpdate);
    Ok(if inherited.Some? then inherited.value else child)
  }

  /** Merging the same parent value a second time changes nothing (shallow mode). */
  lemma {:induction false} MergedIdempotent(child: Value, parent: Value,
                                           deepUpdate: (Value, Value) -> Value)
    requires Merged(child, parent, false, deepUpdate).Ok?
    ensures var once := Merged(child, parent, false, deepUpdate).value;
      Merged(once, parent, false, deepUpdate) == Ok(once)
  {
    var once := Merged(child, parent, false, deepUpdate).value;
    if Truthy(child) && child.Dict? {
      var twice := parent.entries + once.entries;
      assert once.entries == parent.entries + child.entries;
      assert twice == once.entries;
    } else if !Truthy(child) && Truthy(parent) && parent.Dict? {
      assert parent.entries + parent.entries == parent.entries;
    }
  }

  /** Applies one parent's values to every inheritable attribute; nothing else changes. */
  function ApplyParent(f: Fixture, parent: Fixture,
                       deepUpdate: (Value, Value) -> Value): (r: Result<Fixture, Error>)
    ensures r.Ok? ==>
      && r.value.key == f.key
      && r.value.databaseId == f.databaseId
      && r.value.inheritFrom == f.inheritFrom
      && r.value.deepInherit == f.deepInherit
    ensures r.Ok? ==>
      && Merged(f.modelName, parent.modelName, f.deepInherit, deepUpdate) == Ok(r.value.modelName)
      && Merged(f.modelsPackage, parent.modelsPackage, f.deepInherit, deepUpdate) == Ok(r.value.modelsPackage)
      && Merged(f.fields, parent.fields, f.deepInherit, deepUpdate) == Ok(r.value.fields)
      && Merged(f.postCreation, parent.postCreation, f.deepInherit, deepUpdate) == Ok(r.value.postCreation)
      && Merged(f.dependOn, parent.dependOn, f.deepInherit, deepUpdate) == Ok(r.value.dependOn)
    ensures r.Ok? <==>
      && Merged(f.modelName, parent.modelName, f.deepInherit, deepUpdate).Ok?
      && Merged(f.modelsPackage, parent.modelsPackage, f.deepInherit, deepUpdate).Ok?
      && Merged(f.fields, parent.fields, f.deepInherit, deepUpdate).Ok?
      && Merged(f.postCreation, parent.postCreation, f.deepInherit, deepUpdate).Ok?
      && Merged(f.dependOn, parent.dependOn, f.deepInherit, deepUpdate).Ok?
  {
    var d := f.deepInherit;
    var modelName :- Merged(f.modelName, parent.modelName, d, deepUpdate);
    var modelsPackage :- Merged(f.modelsPackage, parent.modelsPackage, d, deepUpdate);
    var fields :- Merged(f.fields, parent.fields, d, deepUpdate);
    var postCreation :- Merged(f.postCreation, parent.postCreation, d, deepUpdate);
    var dependOn :- Merged(f.dependOn, parent.dependOn, d, deepUpdate);
    Ok(f.(modelName := modelName, modelsPackage := modelsPackage, fields := fields,
          postCreation := postCreation, dependOn := dependOn))
  }

  /**
   * Inherits from the record named by `inheritFrom`, after that record has
   * inherited from its own parent. `collection` maps keys to records;
   * `visited` holds the parents already entered, so a looping chain (on
   * which the source recurses without end) is reported instead.
   */
  function InheritFromParent(f: Fixture, collection: map<string, Fixture>, visited: set<string>,
                             deepUpdate: (Value, Value) -> Value): (r: Result<Fixture, Error>)
    ensures !Truthy(f.inheritFrom) ==> r == Ok(f)
    ensures Truthy(f.inheritFrom) && AsString(f.inheritFrom).None? ==> r.Err?
    ensures Truthy(f.inheritFrom) && AsString(f.inheritFrom).Some?
            && AsString(f.inheritFrom).value !in collection ==>
      r == Err(NoParent(AsString(f.inheritFrom).value))
    ensures Truthy(f.inheritFrom) && AsString(f.inheritFrom).Some?
            && AsString(f.inheritFrom).value in collection
            && AsString(f.inheritFrom).value in visited ==>
      r == Err(InheritanceCycle(AsString(f.inheritFrom).value))
    ensures Truthy(f.inheritFrom) && AsString(f.inheritFrom).Some?
            && AsString(f.inheritFrom).value in collection
            && AsString(f.inheritFrom).value !in visited ==>
      var name := AsString(f.inheritFrom).value;
      var parent := InheritFromParent(collection[name], collection, visited + {name}, deepUpdate);
      && (parent.Err? ==> r == Err(parent.error))
      && (parent.Ok? ==> r == ApplyParent(f, parent.value, deepUpdate))
    ensures r.Ok? ==>
      && r.value.key == f.key
      && r.value.databaseId == f.databaseId
      && r.value.inheritFrom == f.inheritFrom
      && r.value.deepInherit == f.deepInherit
    decreases collection.Keys - visited
  {
    if !Truthy(f.inheritFrom) then Ok(f)
    else match AsString(f.inheritFrom)
      case None => Err(Unexpected("inherit_from"))
      case Some(name) =>
        if name !in collection then Err(NoParent(name))
        else if name in visited then Err(InheritanceCycle(name))
        else
          var parent :- InheritFromParent(collection[name], collection, visited + {name}, deepUpdate);
          ApplyParent(f, parent, deepUpdate)
  }

  /** Inheritance as `get_instance` triggers it, from a fresh chain. */
  function Inherit(f: Fixture, collection: map<string, Fixture>,
                   deepUpdate: (Value, Value) -> Value): Result<Fixture, Error>
  {
    InheritFromParent(f, collection, {}, deepUpdate)
  }

  /** Applying the same parent twice gives what applying it once gave (shallow mode). */
  lemma ApplyParentIdempotent(f: Fixture, parent: Fixture, deepUpdate: (Value, Value) -> Value)
    requires !f.deepInherit
    requires ApplyParent(f, parent, deepUpdate).Ok?
    ensures ApplyParent(ApplyParent(f, parent, deepUpdate).value, parent, deepUpdate)
            == ApplyParent(f, parent, deepUpdate)
  {
    MergedIdempotent(f.modelName, parent.modelName, deepUpdate);
    MergedIdempotent(f.modelsPackage, parent.modelsPackage, deepUpdate);
    MergedIdempotent(f.fields, parent.fields, deepUpdate);
    MergedIdempotent(f.postCreation, parent.postCreation, deepUpdate);
    MergedIdempotent(f.dependOn, parent.dependOn, deepUpdate);
  }

  /**
   * Repeating inheritance is harmless: the source never records that a
   * record has already inherited, so `get_instance` redoes it on every
   * call, and in shallow mode the second pass leaves the record as the
   * first pass made it.
   */
  lemma InheritTwiceIsHarmless(f: Fixture, collection: map<string, Fixture>,
                               deepUpdate: (Value, Value) -> Value)
    requires !f.deepInherit
    requires Inherit(f, collection, deepUpdate).Ok?
    ensures var once := Inherit(f, collection, deepUpdate).value;
      Inherit(once, collection, deepUpdate) == Ok(once)
  {
    var once := Inherit(f, collection, deepUpdate).value;
    if Truthy(f.inheritFrom) {
      var name := AsString(f.inheritFrom).value;
      assert AsString(f.inheritFrom).Some? && name in collection;
      var empty: set<string> := {};
      assert empty + {name} == {name};
      var parentResult := InheritFromParent(collection[name], collection, {name}, deepUpdate);
      assert parentResult.Ok?;
      var parent := parentResult.value;
      assert once == ApplyParent(f, parent, deepUpdate).value;
      ApplyParentIdempotent(f, parent, deepUpdate);
    }
  }

  // ---------------------------------------------------------------------
  // Model-name resolution
  // ---------------------------------------------------------------------

  /** A module path and a class name to import from it. */
  datatype ClassRef = ClassRef(modulePath: string, klass: string)

  /**
   * The `(module, class)` pairs tried, in order, to find the model class:
   * none for an empty model name; `pkg + ".m"` for `".m:C"`; `m` for
   * `"m:C"`; and for a bare `"C"` first `pkg + "." + lower("C")`, then `pkg`.
   */
  function ClassCandidates(modelName: Value, modelsPackage: Value): (r: Result<seq<ClassRef>, Error>)
    ensures r == Ok([]) <==> !Truthy(modelName)
    ensures Truthy(modelName) && AsString(modelName).None? ==> r.Err?
    ensures Truthy(modelName) && AsString(modelName).Some? ==>
      var name := AsString(modelName).value;
      && (':' in name && Strings.Count(name, ':') != 1 ==> r == Err(BadModelPath(name)))
      && (r.Ok? && ':' in name && name[0] == '.' ==>
            && AsString(modelsPackage).Some?
            && |r.value| == 1
            && ':' !in r.value[0].klass
            && r.value[0].modulePath + ":" + r.value[0].klass == AsString(modelsPackage).value + name)
      && (r.Ok? && ':' in name && name[0] != '.' ==>
            && |r.value| == 1
            && ':' !in r.value[0].modulePath && ':' !in r.value[0].klass
            && r.value[0].modulePath + ":" + r.value[0].klass == name)
      && (':' in name && Strings.Count(name, ':') == 1 && (name[0] != '.' || AsString(modelsPackage).Some?) ==>
            r.Ok?)
      && (':' !in name && AsString(modelsPackage).Some? ==>
            && r.Ok? && |r.value| == 2
            && r.value[0].klass == name && r.value[1].klass == name
            && r.value[1].modulePath == AsString(modelsPackage).value
            && r.value[0].modulePath == r.value[1].modulePath + "." + Strings.Lower(name))
  {
    if !Truthy(modelName) then Ok([])
    else match AsString(modelName)
      case None => Err(Unexpected("model"))
      case Some(name) =>
        if ':' in name then
          var parts := Strings.Split(name, ':');
          if |parts| != 2 then Err(BadModelPath(name))
          else
            Strings.JoinSplit(name, ':');
            Strings.JoinPrefix(parts, ':');
            if name[0] == '.' then
              match AsString(modelsPackage)
              case None => Err(Unexpected("models_package"))
              case Some(pkg) => Ok([ClassRef(pkg + parts[0], parts[1])])
            else
              Ok([ClassRef(parts[0], parts[1])])
        else
          match AsString(modelsPackage)
          case None => Err(Unexpected("models_package"))
          case Some(pkg) => Ok([ClassRef(pkg + "." + Strings.Lower(name), name), ClassRef(pkg, name)])
  }

  // ---------------------------------------------------------------------
  // Relationships
  // ---------------------------------------------------------------------

  /**
   * Splits a relationship name such as `toaster.color` into the fixture
   * name and the attribute; only one level is supported, so components
   * after the second are dropped.
   */
  function ExtractRelName(name: string): (r: (string, Option<string>))
    ensures '.' !in name ==> r == (name, None)
    ensures '.' in name ==>
      && r.1.Some?
      && '.' !in r.0 && '.' !in r.1.value
      && |r.0| + 1 + |r.1.value| <= |name|
      && name[..|r.0| + 1 + |r.1.value|] == r.0 + "." + r.1.value
    ensures '.' in name ==>
      |r.0| + 1 + |r.1.value| == |name| || name[|r.0| + 1 + |r.1.value|] == '.'
    ensures Strings.Count(name, '.') == 1 ==> r.1.Some? && name == r.0 + "." + r.1.value
  {
    if '.' in name then
      var path := Strings.Split(name, '.');
      Strings.JoinSplit(name, '.');
      Strings.JoinPrefix(path, '.');
      (path[0], Some(path[1]))
    else
      Strings.CountZero(name, '.');
      (name, None)
  }

  /** A dependency: the fixture depended on and, optionally, the attribute used. */
  datatype Relationship = Relationship(target: Value, attr: Option<string>)

  function TokenRelationship(name: string): Relationship {
    var (relName, attr) := ExtractRelName(name);
    Relationship(Str(relName), attr)
  }

  /** The relationships of the tokens among `items`, one level deep. */
  function ItemRelationships(items: seq<Value>): seq<Relationship>
    decreases |items|
  {
    if |items| == 0 then []
    else
      (if items[0].Token? then [TokenRelationship(items[0].name)] else [])
      + ItemRelationships(items[1..])
  }

  /** The relationships one field value contributes: a token, or the tokens directly in a list. */
  function FieldRelationships(v: Value): seq<Relationship> {
    match v
    case Token(name) => [TokenRelationship(name)]
    case List(items) => ItemRelationships(items)
    case _ => []
  }

  /** The relationships of the fields visited in `order`. */
  function FieldsRelationships(fields: map<string, Value>, order: seq<string>): seq<Relationship>
    requires forall i :: 0 <= i < |order| ==> order[i] in fields
    decreases |order|
  {
    if |order| == 0 then []
    else
      FieldsRelationships(fields, order[..|order| - 1]) + FieldRelationships(fields[order[|order| - 1]])
  }

  /** The `depend_on` entries, each with no attribute. */
  function DependencyRelationships(deps: seq<Value>): (r: seq<Relationship>)
    ensures |r| == |deps|
    ensures forall i :: 0 <= i < |deps| ==> r[i] == Relationship(deps[i], None)
  {
    seq(|deps|, i requires 0 <= i < |deps| => Relationship(deps[i], None))
  }

  /**
   * All dependencies of a record: the `depend_on` entries first, then one
   * relationship per token among the field values, looking one level
   * into lists. The mapping's iteration order is not fixed, so the
   * method also returns the order in which it visited the fields.
   */
  method ExtractRelationships(f: Fixture) returns (order: seq<string>, r: Result<seq<Relationship>, Error>)
    ensures r.Ok? <==> f.dependOn.List? && f.fields.Dict?
    ensures r.Ok? ==> IsEnumeration(order, f.fields.entries.Keys)
    ensures r.Ok? ==>
      r.value == DependencyRelationships(f.dependOn.items) + FieldsRelationships(f.fields.entries, order)
  {
    if !f.dependOn.List? {
      return [], Err(Unexpected("depend_on"));
    }
    if !f.fields.Dict? {
      return [], Err(Unexpected("fields"));
    }
    var fields := f.fields.entries;
    var remaining := fields.Keys;
    var found: seq<Relationship> := [];
    order := [];
    while remaining != {}
      invariant forall i, j :: 0 <= i < j < |order| ==> order[i] != order[j]
      invariant forall k :: k in order <==> k in fields && k !in remaining
      invariant remaining <= fields.Keys
      invariant found == FieldsRelationships(fields, order)
      decreases remaining
    {
      var k :| k in remaining;
      assert (order + [k])[..|order|] == order;
      order := order + [k];
      found := found + FieldRelationships(fields[k]);
      remaining := remaining - {k};
    }
    r := Ok(DependencyRelationships(f.dependOn.items) + found);
  }

  /** A relationship comes from the items exactly when some item is a token naming it. */
  lemma {:induction false} ItemRelationshipsMembership(items: seq<Value>, rel: Relationship)
    ensures rel in ItemRelationships(items) <==>
      exists i :: 0 <= i < |items| && items[i].Token? && rel == TokenRelationship(items[i].name)
    decreases |items|
  {
    if |items| > 0 {
      ItemRelationshipsMembership(items[1..], rel);
      assert forall i :: 1 <= i < |items| ==> items[i] == items[1..][i - 1];
      if exists i :: 1 <= i < |items| && items[i].Token? && rel == TokenRelationship(items[i].name) {
        var i :| 1 <= i < |items| && items[i].Token? && rel == TokenRelationship(items[i].name);
        assert items[1..][i - 1] == items[i];
      }
    }
  }

  /**
   * Whatever the visiting order, a relationship is extracted from the
   * fields exactly when some visited field contributes it.
   */
  lemma {:induction false} FieldsRelationshipsMembership(fields: map<string, Value>, order: seq<string>,
                                                          rel: Relationship)
    requires forall i :: 0 <= i < |order| ==> order[i] in fields
    ensures rel in FieldsRelationships(fields, order) <==>
      exists i :: 0 <= i < |order| && rel in FieldRelationships(fields[order[i]])
    decreases |order|
  {
    if |order| > 0 {
      var init := order[..|order| - 1];
      FieldsRelationshipsMembership(fields, init, rel);
      assert forall i :: 0 <= i < |init| ==> init[i] == order[i];
    }
  }

  /** Tokens nested two lists deep are not extracted; only the first level is. */
  lemma NestedTokensNotExtracted(name: string)
    ensures FieldRelationships(List([List([Token(name)])])) == []
    ensures FieldRelationships(List([Token(name)])) == [TokenRelationship(name)]
  {
    var inner := [List([Token(name)])];
    assert inner[1..] == [];
    assert ItemRelationships(inner) == [] + ItemRelationships([]);
    assert [Token(name)][1..] == [];
  }

  /** A token reachable through nested lists. */
  predicate HasListToken(v: Value)
    decreases v
  {
    match v
    case Token(_) => true
    case List(items) => exists i :: 0 <= i < |items| && HasListToken(items[i])
    case _ => false
  }

  /**
   * Replaces every relationship token, at any depth of list nesting, with
   * the fixture it names; mappings and other values are left as they are.
   */
  function ProcessField(v: Value, lookup: string -> Value): (r: Value)
    ensures v.Token? ==> r == lookup(v.name)
    ensures v.List? ==> r.List? && |r.items| == |v.items|
    ensures v.List? ==> forall i :: 0 <= i < |v.items| ==> r.items[i] == ProcessField(v.items[i], lookup)
    ensures !v.Token? && !v.List? ==> r == v
    decreases v
  {
    match v
    case Token(name) => lookup(name)
    case List(items) =>
      List(seq(|items|, i requires 0 <= i < |items| => ProcessField(items[i], lookup)))
    case _ => v
  }

  /** Values without tokens come through substitution unchanged. */
  lemma {:induction false} ProcessFieldWithoutTokens(v: Value, lookup: string -> Value)
    requires !HasListToken(v)
    ensures ProcessField(v, lookup) == v
    decreases v
  {
    if v.List? {
      var items := v.items;
      var out := ProcessField(v, lookup).items;
      forall i | 0 <= i < |items|
        ensures out[i] == items[i]
      {
        ProcessFieldWithoutTokens(items[i], lookup);
      }
      assert out == items;
    }
  }

  /** When the fixtures looked up hold no tokens, substitution leaves none. */
  lemma {:induction false} ProcessFieldRemovesTokens(v: Value, lookup: string -> Value)
    requires forall n :: !HasListToken(lookup(n))
    ensures !HasListToken(ProcessField(v, lookup))
    decreases v
  {
    if v.List? {
      var items := v.items;
      var out := ProcessField(v, lookup).items;
      forall i | 0 <= i < |items|
        ensures !HasListToken(out[i])
      {
        ProcessFieldRemovesTokens(items[i], lookup);
      }
    }
  }

  /** Substituting twice is substituting once, when lookups hold no tokens. */
  lemma ProcessFieldIdempotent(v: Value, lookup: string -> Value)
    requires forall n :: !HasListToken(lookup(n))
    ensures ProcessField(ProcessField(v, lookup), lookup) == ProcessField(v, lookup)
  {
    ProcessFieldRemovesTokens(v, lookup);
    ProcessFieldWithoutTokens(ProcessField(v, lookup), lookup);
  }

  /** Tokens two lists deep are substituted in place of the fixtures they name. */
  lemma NestedListSubstitution(a: string, b: string, lookup: string -> Value)
    ensures ProcessField(List([List([Token(a)]), List([Token(b)])]), lookup)
            == List([List([lookup(a)]), List([lookup(b)])])
  {
    var inner1 := List([Token(a)]);
    var inner2 := List([Token(b)]);
    assert ProcessField(inner1, lookup) == List([lookup(a)]);
    assert ProcessField(inner2, lookup) == List([lookup(b)]);
  }

  /**
   * Substitutes relationships in a parameter container, in every value of
   * a mapping or every item of a list. Anything else cannot be assigned
   * into by key or index.
   */
  function ProcessRelationships(params: Value, lookup: string -> Value): (r: Result<Value, Error>)
    ensures r.Ok? <==> params.Dict? || params.List?
    ensures params.Dict? ==>
      && r.Ok? && r.value.Dict? && r.value.entries.Keys == params.entries.Keys
      && forall k :: k in params.entries ==> r.value.entries[k] == ProcessField(params.entries[k], lookup)
    ensures params.List? ==>
      && r.Ok? && r.value.List? && |r.value.items| == |params.items|
      && forall i :: 0 <= i < |params.items| ==> r.value.items[i] == ProcessField(params.items[i], lookup)
  {
    match params
    case Dict(entries) => Ok(Dict(map k | k in entries :: ProcessField(entries[k], lookup)))
    case List(items) => Ok(ProcessField(params, lookup))
    case _ => Err(Unexpected("fields"))
  }

  /** No value or item of the container holds a token reachable through lists. */
  predicate NoListTokens(params: Value) {
    match params
    case Dict(entries) => forall k :: k in entries ==> !HasListToken(entries[k])
    case List(items) => forall i :: 0 <= i < |items| ==> !HasListToken(items[i])
    case _ => true
  }

  /** A container without tokens comes through substitution unchanged. */
  lemma ProcessRelationshipsWithoutTokens(params: Value, lookup: string -> Value)
    requires params.Dict? || params.List?
    requires NoListTokens(params)
    ensures ProcessRelationships(params, lookup) == Ok(params)
  {
    var r := ProcessRelationships(params, lookup).value;
    if params.Dict? {
      forall k | k in params.entries
        ensures r.entries[k] == params.entries[k]
      {
        ProcessFieldWithoutTokens(params.entries[k], lookup);
      }
      assert r.entries == params.entries;
    } else {
      forall i | 0 <= i < |params.items|
        ensures r.items[i] == params.items[i]
      {
        ProcessFieldWithoutTokens(params.items[i], lookup);
      }
      assert r.items == params.items;
    }
  }

  /** Substituting a container twice is substituting it once, when lookups hold no tokens. */
  lemma ProcessRelationshipsIdempotent(params: Value, lookup: string -> Value)
    requires params.Dict? || params.List?
    requires forall n :: !HasListToken(lookup(n))
    ensures var once := ProcessRelationships(params, lookup).value;
      ProcessRelationships(once, lookup) == Ok(once)
  {
    var once := ProcessRelationships(params, lookup).value;
    if params.Dict? {
      forall k | k in once.entries
        ensures !HasListToken(once.entries[k])
      {
        ProcessFieldRemovesTokens(params.entries[k], lookup);
      }
    } else {
      forall i | 0 <= i < |once.items|
        ensures !HasListToken(once.items[i])
      {
        ProcessFieldRemovesTokens(params.items[i], lookup);
      }
    }
    ProcessRelationshipsWithoutTokens(once, lookup);
  }

  // ---------------------------------------------------------------------
  // Instances
  // ---------------------------------------------------------------------

  /**
   * What `get_instance` produces: a row fetched by id, an instance of a
   * model class built from the parameters, or, with no model, the
   * parameters themselves (a mapping or a list). `assignments` are the
   * post-creation attributes set on the instance afterwards.
   */
  datatype RecordInstance =
    | FromDatabase(classes: seq<ClassRef>, id: Value, assignments: map<string, Value>)
    | FromModel(classes: seq<ClassRef>, params: Value, assignments: map<string, Value>)
    | Plain(params: Value)

  /**
   * The parameters an instance is built from: a copy of the fields, the
   * overrides laid over a mapping (a list has no `update`), every
   * callable replaced by its result, and every relationship token
   * substituted.
   */
  function BuildParams(fields: Value, overrides: Value, lookup: string -> Value): (r: Result<Value, Error>)
    ensures r.Err? <==>
      || !(fields.Dict? || fields.List?)
      || (Truthy(overrides) && !(fields.Dict? && overrides.Dict?))
    ensures r.Ok? && fields.List? ==>
      && r.value.List? && |r.value.items| == |fields.items|
      && forall i :: 0 <= i < |fields.items| ==> r.value.items[i] == ProcessField(Force(fields.items[i]), lookup)
    ensures r.Ok? && fields.Dict? && !Truthy(overrides) ==>
      r.value.Dict? && r.value.entries.Keys == fields.entries.Keys
    ensures r.Ok? && fields.Dict? && Truthy(overrides) ==>
      r.value.Dict? && r.value.entries.Keys == fields.entries.Keys + overrides.entries.Keys
    ensures r.Ok? && fields.Dict? && Truthy(overrides) ==>
      forall k :: k in overrides.entries ==> r.value.entries[k] == ProcessField(Force(overrides.entries[k]), lookup)
    ensures r.Ok? && fields.Dict? ==>
      forall k :: k in fields.entries && !(Truthy(overrides) && k in overrides.entries) ==>
        r.value.entries[k] == ProcessField(Force(fields.entries[k]), lookup)
  {
    match fields
    case Dict(entries) =>
      var merged :-
        if !Truthy(overrides) then Ok(entries)
        else if overrides.Dict? then Ok(entries + overrides.entries)
        else Err(Unexpected("overrides"));
      ProcessRelationships(Dict(map k | k in merged :: Force(merged[k])), lookup)
    case List(items) =>
      if Truthy(overrides) then Err(Unexpected("overrides"))
      else ProcessRelationships(List(seq(|items|, i requires 0 <= i < |items| => Force(items[i]))), lookup)
    case _ => Err(Unexpected("fields"))
  }

  /** Post-creation assignments, with a relationship token replaced by the fixture it names. */
  function PostCreationAssignments(postCreation: Value, lookup: string -> Value): (r: Result<map<string, Value>, Error>)
    ensures r.Ok? <==> postCreation.Dict?
    ensures r.Ok? ==> r.value.Keys == postCreation.entries.Keys
    ensures r.Ok? ==> forall k :: k in postCreation.entries && postCreation.entries[k].Token? ==>
      r.value[k] == lookup(postCreation.entries[k].name)
    ensures r.Ok? ==> forall k :: k in postCreation.entries && !postCreation.entries[k].Token? ==>
      r.value[k] == postCreation.entries[k]
  {
    if !postCreation.Dict? then Err(Unexpected("post_creation"))
    else
      var pc := postCreation.entries;
      Ok(map k | k in pc :: if pc[k].Token? then lookup(pc[k].name) else pc[k])
  }

  /**
   * Produces an instance of the record after inheriting from its parent.
   * With a database id the row is fetched; otherwise the instance is
   * built from `BuildParams`, and with no model it is those parameters
   * themselves, which cannot take post-creation attributes.
   */
  function GetInstance(f: Fixture, overrides: Value, lookup: string -> Value,
                       collection: map<string, Fixture>,
                       deepUpdate: (Value, Value) -> Value): (r: Result<RecordInstance, Error>)
    ensures Inherit(f, collection, deepUpdate).Err? ==> r.Err?
    ensures Inherit(f, collection, deepUpdate).Ok? ==>
      var g := Inherit(f, collection, deepUpdate).value;
      var classes := ClassCandidates(g.modelName, g.modelsPackage);
      var assignments := PostCreationAssignments(g.postCreation, lookup);
      && (Truthy(g.databaseId) && classes.Ok? && assignments.Ok? ==>
            r == Ok(FromDatabase(classes.value, g.databaseId, assignments.value)))
      && (classes.Err? || assignments.Err? ==> r.Err?)
    ensures Inherit(f, collection, deepUpdate).Ok? ==>
      var g := Inherit(f, collection, deepUpdate).value;
      var params := BuildParams(g.fields, overrides, lookup);
      var classes := ClassCandidates(g.modelName, g.modelsPackage);
      var assignments := PostCreationAssignments(g.postCreation, lookup);
      && (!Truthy(g.databaseId) && params.Err? ==> r.Err?)
      && (!Truthy(g.databaseId) && params.Ok? && classes.Ok? && assignments.Ok? ==>
            && (|classes.value| > 0 ==> r == Ok(FromModel(classes.value, params.value, assignments.value)))
            && (|classes.value| == 0 && |assignments.value| > 0 ==> r == Err(AttributeOnPlainInstance))
            && (|classes.value| == 0 && |assignments.value| == 0 ==> r == Ok(Plain(params.value))))
    ensures r.Ok? ==>
      var g := Inherit(f, collection, deepUpdate).value;
      && (r.value.FromDatabase? <==> Truthy(g.databaseId))
      && (r.value.Plain? <==> !Truthy(g.databaseId) && !Truthy(g.modelName))
  {
    var g :- Inherit(f, collection, deepUpdate);
    if Truthy(g.databaseId) then
      var classes :- ClassCandidates(g.modelName, g.modelsPackage);
      var assignments :- PostCreationAssignments(g.postCreation, lookup);
      Ok(FromDatabase(classes, g.databaseId, assignments))
    else
      var params :- BuildParams(g.fields, overrides, lookup);
      var classes :- ClassCandidates(g.modelName, g.modelsPackage);
      var assignments :- PostCreationAssignments(g.postCreation, lookup);
      if |classes| > 0 then Ok(FromModel(classes, params, assignments))
      else if |assignments| > 0 then Err(AttributeOnPlainInstance)
      else Ok(Plain(params))
  }

  /** A value that is neither callable nor holds a token reachable through lists. */
  predicate Inert(v: Value) {
    !v.Thunk? && !HasListToken(v)
  }

  /** Calling the callables of a mapping without any leaves it unchanged. */
  lemma ForceInertMapping(m: map<string, Value>)
    requires forall k :: k in m ==> !m[k].Thunk?
    ensures (map k | k in m :: Force(m[k])) == m
  {
  }

  /** Inert fields and overrides are assembled into the overlaid mapping, unchanged. */
  lemma BuildParamsOfInertMappings(fields: Value, overrides: Value, lookup: string -> Value)
    requires fields.Dict? && overrides.Dict?
    requires forall k :: k in fields.entries ==> Inert(fields.entries[k])
    requires forall k :: k in overrides.entries ==> Inert(overrides.entries[k])
    ensures BuildParams(fields, overrides, lookup) == Ok(Dict(fields.entries + overrides.entries))
  {
    var merged := fields.entries + overrides.entries;
    if !Truthy(overrides) {
      assert overrides.entries == map[];
      assert merged == fields.entries;
    }
    assert forall k :: k in merged ==> Inert(merged[k]);
    ForceInertMapping(merged);
    assert BuildParams(fields, overrides, lookup)
           == ProcessRelationships(Dict(map k | k in merged :: Force(merged[k])), lookup);
    assert NoListTokens(Dict(merged));
    ProcessRelationshipsWithoutTokens(Dict(merged), lookup);
  }

  /**
   * A record without parent, id, model or post-creation attributes, whose
   * fields and overrides are inert mappings, is the mapping of its fields
   * with the overrides laid over them.
   */
  lemma PlainInstanceIsItsFields(f: Fixture, overrides: Value, lookup: string -> Value,
                                 collection: map<string, Fixture>, deepUpdate: (Value, Value) -> Value)
    requires !Truthy(f.inheritFrom) && !Truthy(f.databaseId) && !Truthy(f.modelName)
    requires f.postCreation == Dict(map[])
    requires f.fields.Dict? && overrides.Dict?
    requires forall k :: k in f.fields.entries ==> Inert(f.fields.entries[k])
    requires forall k :: k in overrides.entries ==> Inert(overrides.entries[k])
    ensures GetInstance(f, overrides, lookup, collection, deepUpdate)
            == Ok(Plain(Dict(f.fields.entries + overrides.entries)))
  {
    assert Inherit(f, collection, deepUpdate) == Ok(f);
    BuildParamsOfInertMappings(f.fields, overrides, lookup);
    assert PostCreationAssignments(f.postCreation, lookup) == Ok(map[]);
  }

  /**
   * A record whose fields are a list of relationship tokens, with no
   * model, is the list of the fixtures the tokens name.
   */
  lemma ListOfRelationships(key: string, a: string, b: string, lookup: string -> Value,
                            collection: map<string, Fixture>, deepUpdate: (Value, Value) -> Value)
    ensures var f := Fixture(key, Null, Null, false, Null, Str(""),
                             List([Token(a), Token(b)]), Dict(map[]), List([]));
      GetInstance(f, Null, lookup, collection, deepUpdate) == Ok(Plain(List([lookup(a), lookup(b)])))
  {
    var f := Fixture(key, Null, Null, false, Null, Str(""),
                     List([Token(a), Token(b)]), Dict(map[]), List([]));
    var params := BuildParams(f.fields, Null, lookup);
    assert params.value.items == [lookup(a), lookup(b)];
    assert PostCreationAssignments(f.postCreation, lookup) == Ok(map[]);
  }
}

=== FILE: manager.dfy ===
/**
 * The fixtures manager: resolves a parsed fixture file into keyed
 * definitions, memoises one instance per key until the cache is cleaned,
 * keeps the lifecycle hooks, and installs instances through the session.
 *
 * The manager is a state record and every operation a state transformer
 * returning the new state, the side effects it caused (hook calls and
 * session calls, in order) and either its value or the exception the
 * source raises. Effects made before an exception are kept, as in the
 * source. Instances are opaque identities drawn from a counter; building
 * one is the abstract `build` parameter.
 */
module FixturesManager {
  import opened Results
  import opened Values
  import Strings

  /** The lifecycle hook names that may be registered. */
  const AllowedHooks: set<string> := {"before_save", "after_save", "before_install", "after_install"}

  /** One top-level entry of the parsed file: attribute name to value. */
  type RawEntry = map<string, Value>

  /** The parsed file: its top-level entries in the order the mapping yields them. */
  type Content = seq<(string, RawEntry)>

  /** A resolved fixture: its key and the keyword arguments its record is constructed with. */
  datatype Definition = Definition(key: string, args: map<string, Value>)

  datatype Error =
    | UnsupportedFiletype(filename: string)              // the file name does not end in `.yaml`
    | MissingModel(name: string)                         // an entry without `model`
    | DuplicateArgument(name: string, argument: string)  // an entry repeating `key` or `fixture_manager`
    | ObjectsNotAList(name: string)                      // `objects` that is not a list
    | NoSuchFixture(key: string)                         // a key that was not resolved
    | NotLoaded                                          // state that only a completed `load` sets
    | HookNotAllowed(name: string)                       // a hook name outside `AllowedHooks`
    | BuildFailed(key: string)                           // building the instance raised

  /** An instance, known by its identity and by whether Python would find it truthy. */
  datatype Instance = Instance(id: nat, truthy: bool)

  /** The identity of a hook callable. */
  type HookId = nat

  /** What `_get_hook` returns: the registered callable or the no-op default. */
  datatype Hook = NoOp | Registered(fn: HookId)

  /** A side effect, in the order it happens. */
  datatype Event =
    | HookCall(event: string, hook: Hook, instance: Instance)
    | SessionAdd(session: nat, instance: Instance)
    | SessionCommit(session: nat)

  /** What `load` stores before resolving: the file, the session and the models package. */
  datatype Config = Config(filename: string, session: nat, modelsPackage: string)

  /** The manager's attributes; `None` for one the source has not assigned yet. */
  datatype Manager = Manager(
    config: Option<Config>,
    fixtures: Option<map<string, Definition>>,
    cache: Option<map<string, Instance>>,
    hooks: map<string, HookId>,
    nextId: nat)

  /** The outcome of an operation: new state, side effects, and value or error. */
  datatype Run<R> = Run(state: Manager, trace: seq<Event>, result: Result<R, Error>)

  /** What building a definition's instance gives: an instance of the stated truthiness, or an exception. */
  datatype Build = Built(truthy: bool) | Raised

  /** The argument of `install_fixtures`: one key, or keys in order. */
  datatype KeyArg = SingleKey(key: string) | KeySequence(keys: seq<string>)

  /**
   * The state invariant: a loaded manager has its configuration and a
   * cache, and every cached instance was drawn before the counter.
   */
  ghost predicate Valid(m: Manager) {
    && (m.fixtures.Some? ==> m.cache.Some? && m.config.Some?)
    && (m.cache.Some? ==> forall k :: k in m.cache.value ==> m.cache.value[k].id < m.nextId)
  }

  /** A new manager: only the hook table exists. */
  function NewManager(): (m: Manager)
    ensures Valid(m)
    ensures m.hooks == map[] && m.fixtures.None? && m.cache.None?
  {
    Manager(None, None, None, map[], 0)
  }

  // ---------------------------------------------------------------------
  // Loading and resolution
  // ---------------------------------------------------------------------

  /**
   * Reads and parses a fixture file; `parse` stands for reading the file
   * and the YAML parser. Only `.yaml` files are accepted.
   */
  function LoadFile(filename: string, parse: string -> Content): (r: Result<Content, Error>)
    ensures r.Ok? <==> Strings.EndsWith(filename, ".yaml")
    ensures r.Ok? ==> r.value == parse(filename)
    ensures r.Err? ==> r.error == UnsupportedFiletype(filename)
  {
    if Strings.EndsWith(filename, ".yaml") then Ok(parse(filename))
    else Err(UnsupportedFiletype(filename))
  }

  /** The key of the `i`-th object of batch entry `name`. */
  function BatchKey(name: string, i: nat): string {
    name + "_" + Strings.NatToString(i)
  }

  /** The keys a batch entry with `n` objects produces. */
  function BatchKeys(name: string, n: nat): set<string> {
    set i | 0 <= i < n :: BatchKey(name, i)
  }

  lemma BatchKeyInjective(name: string, i: nat, j: nat)
    requires BatchKey(name, i) == BatchKey(name, j)
    ensures i == j
  {
    var prefix := name + "_";
    assert BatchKey(name, i)[|prefix|..] == Strings.NatToString(i);
    assert BatchKey(name, j)[|prefix|..] == Strings.NatToString(j);
    Strings.NatToStringInjective(i, j);
  }

  /** Adding the next index adds exactly its key. */
  lemma BatchKeysExtend(name: string, n: nat)
    ensures BatchKeys(name, n + 1) == BatchKeys(name, n) + {BatchKey(name, n)}
  {
    forall k | k in BatchKeys(name, n + 1)
      ensures k in BatchKeys(name, n) + {BatchKey(name, n)}
    {
      var i :| 0 <= i < n + 1 && k == BatchKey(name, i);
      if i < n {
        assert k in BatchKeys(name, n);
      }
    }
  }

  /** No batch key is the entry's own name. */
  lemma BatchKeyIsNotName(name: string, i: nat)
    ensures BatchKey(name, i) != name
  {
    assert |BatchKey(name, i)| > |name|;
  }

  /** The constructor arguments of one object of a batch entry. */
  function BatchArgs(model: Value, fields: Value): map<string, Value> {
    map["model" := model, "fields" := fields]
  }

  /** The definitions a batch entry produces, one per object. */
  function BatchDefinitions(name: string, model: Value, items: seq<Value>): map<string, Definition>
    decreases |items|
  {
    if |items| == 0 then map[]
    else
      var n := |items| - 1;
      BatchDefinitions(name, model, items[..n])[BatchKey(name, n) := Definition(BatchKey(name, n), BatchArgs(model, items[n]))]
  }

  /**
   * A batch entry with N objects produces exactly the keys `name_0` to
   * `name_{N-1}`; key `name_i` carries the entry's model and the `i`-th
   * object as its fields.
   */
  lemma {:induction false} BatchDefinitionsSpec(name: string, model: Value, items: seq<Value>)
    ensures BatchDefinitions(name, model, items).Keys == BatchKeys(name, |items|)
    ensures forall i :: 0 <= i < |items| ==>
      BatchDefinitions(name, model, items)[BatchKey(name, i)] == Definition(BatchKey(name, i), BatchArgs(model, items[i]))
    decreases |items|
  {
    if |items| > 0 {
      var n := |items| - 1;
      var key := BatchKey(name, n);
      BatchDefinitionsSpec(name, model, items[..n]);
      var prior := BatchDefinitions(name, model, items[..n]);
      var r := BatchDefinitions(name, model, items);
      assert r == prior[key := Definition(key, BatchArgs(model, items[n]))];
      BatchKeysExtend(name, n);
      forall i | 0 <= i < |items|
        ensures r[BatchKey(name, i)] == Definition(BatchKey(name, i), BatchArgs(model, items[i]))
      {
        if i < n {
          if BatchKey(name, i) == key {
            BatchKeyInjective(name, i, n);
          }
          assert items[..n][i] == items[i];
        }
      }
    }
  }

  /** A named entry's arguments, with `id` renamed to `id_`. */
  function RenameId(v: RawEntry): (r: RawEntry)
    ensures "id" !in r
    ensures "id" in v ==> "id_" in r && r["id_"] == v["id"]
    ensures "id" in v ==> r.Keys == v.Keys - {"id"} + {"id_"}
    ensures "id" !in v ==> r == v
    ensures forall k :: k in v && k != "id" && k != "id_" ==> r[k] == v[k]
  {
    if "id" in v then (v - {"id"})["id_" := v["id"]] else v
  }

  /** True when an entry is a batch: it has `objects`. */
  predicate IsBatch(v: RawEntry) {
    "objects" in v
  }

  /** The keys an entry contributes when it resolves. */
  function EntryKeys(name: string, v: RawEntry): set<string> {
    if IsBatch(v) && v["objects"].List? then BatchKeys(name, |v["objects"].items|) else {name}
  }

  /**
   * The definitions an entry contributes when it resolves: one per object
   * of a batch, or the renamed arguments under the entry's own name.
   */
  function EntryDefinitions(name: string, v: RawEntry): map<string, Definition> {
    if IsBatch(v) then
      if v["objects"].List? && |v["objects"].items| > 0 && "model" in v
      then BatchDefinitions(name, v["model"], v["objects"].items)
      else map[]
    else map[name := Definition(name, RenameId(v))]
  }

  /**
   * An entry that resolves without raising: a batch needs list `objects`
   * and, when it has objects, a `model`; a named entry needs a `model` and
   * must not repeat the `key` or `fixture_manager` arguments.
   */
  predicate EntryResolves(v: RawEntry) {
    if IsBatch(v) then v["objects"].List? && (|v["objects"].items| == 0 || "model" in v)
    else "model" in v && "key" !in v && "fixture_manager" !in v
  }

  /**
   * Resolves one top-level entry into `acc`. A batch entry adds one
   * definition per object and none under its own name; a named entry has
   * `id` renamed and must state a model.
   */
  function ResolveEntry(acc: map<string, Definition>, name: string, v: RawEntry): (r: Result<map<string, Definition>, Error>)
    ensures r.Ok? <==> EntryResolves(v)
    ensures !IsBatch(v) && "model" !in v ==> r == Err(MissingModel(name))
    ensures IsBatch(v) && !v["objects"].List? ==> r == Err(ObjectsNotAList(name))
    ensures IsBatch(v) && v["objects"].List? && |v["objects"].items| > 0 && "model" !in v ==>
      r == Err(MissingModel(name))
    ensures r.Ok? ==> r.value.Keys == acc.Keys + EntryKeys(name, v)
    ensures r.Ok? ==> forall k :: k in acc && k !in EntryKeys(name, v) ==> r.value[k] == acc[k]
    ensures r.Ok? && IsBatch(v) ==> forall i :: 0 <= i < |v["objects"].items| ==>
      r.value[BatchKey(name, i)] == Definition(BatchKey(name, i), BatchArgs(v["model"], v["objects"].items[i]))
    ensures r.Ok? && !IsBatch(v) ==> r.value[name] == Definition(name, RenameId(v))
    ensures r.Ok? ==> r.value == acc + EntryDefinitions(name, v)
  {
    if IsBatch(v) then
      match v["objects"]
      case List(items) =>
        if |items| == 0 then
          assert BatchKeys(name, 0) == {};
          assert acc + map[] == acc;
          Ok(acc)
        else if "model" !in v then Err(MissingModel(name))
        else
          BatchDefinitionsSpec(name, v["model"], items);
          Ok(acc + BatchDefinitions(name, v["model"], items))
      case _ => Err(ObjectsNotAList(name))
    else
      var args := RenameId(v);
      if "model" !in args then Err(MissingModel(name))
      else if "key" in args then Err(DuplicateArgument(name, "key"))
      else if "fixture_manager" in args then Err(DuplicateArgument(name, "fixture_manager"))
      else
        assert acc[name := Definition(name, args)] == acc + map[name := Definition(name, args)];
        Ok(acc[name := Definition(name, args)])
  }

  /** A batch entry never yields a definition under its own name. */
  lemma BatchEntryHasNoOwnKey(acc: map<string, Definition>, name: string, v: RawEntry)
    requires IsBatch(v) && v["objects"].List?
    requires ResolveEntry(acc, name, v).Ok?
    ensures name in ResolveEntry(acc, name, v).value <==> name in acc
  {
    forall i: nat | i < |v["objects"].items|
      ensures BatchKey(name, i) != name
    {
      BatchKeyIsNotName(name, i);
    }
  }

  /** The keys all entries contribute. */
  function ContentKeys(content: Content): set<string>
    decreases |content|
  {
    if |content| == 0 then {} else EntryKeys(content[0].0, content[0].1) + ContentKeys(content[1..])
  }

  /** `acc` updated with each entry's definitions in file order; later entries win. */
  function ContentDefinitions(acc: map<string, Definition>, content: Content): map<string, Definition>
    decreases |content|
  {
    if |content| == 0 then acc
    else ContentDefinitions(acc + EntryDefinitions(content[0].0, content[0].1), content[1..])
  }

  /** Resolves the entries in order; the first failing entry aborts the whole resolution. */
  function ResolveAll(acc: map<string, Definition>, content: Content): (r: Result<map<string, Definition>, Error>)
    ensures r.Ok? ==> r.value.Keys == acc.Keys + ContentKeys(content)
    ensures r.Ok? ==> r.value == ContentDefinitions(acc, content)
    decreases |content|
  {
    if |content| == 0 then Ok(acc)
    else
      var next :- ResolveEntry(acc, content[0].0, content[0].1);
      ResolveAll(next, content[1..])
  }

  /** Every entry of the file resolves. */
  predicate AllResolve(content: Content) {
    forall i :: 0 <= i < |content| ==> EntryResolves(content[i].1)
  }

  /** The whole file resolves exactly when each of its entries does. */
  lemma {:induction false} ResolutionSucceeds(acc: map<string, Definition>, content: Content)
    ensures ResolveAll(acc, content).Ok? <==> AllResolve(content)
    decreases |content|
  {
    if |content| > 0 {
      var first := ResolveEntry(acc, content[0].0, content[0].1);
      assert forall i :: 0 <= i < |content| - 1 ==> content[1..][i] == content[i + 1];
      if first.Ok? {
        ResolutionSucceeds(first.value, content[1..]);
      }
    }
  }

  /** A file whose entries all resolve yields exactly the definitions its entries contribute. */
  lemma ResolveAllDefinitions(acc: map<string, Definition>, content: Content)
    requires AllResolve(content)
    ensures ResolveAll(acc, content) == Ok(ContentDefinitions(acc, content))
  {
    ResolutionSucceeds(acc, content);
  }

  /**
   * A key carries the definition of the last entry that contributes it:
   * a later entry overwrites an earlier one, and `acc` counts only for
   * keys no entry contributes.
   */
  lemma {:induction false} LastEntryWins(acc: map<string, Definition>, content: Content, i: nat, k: string)
    requires i < |content| && k in EntryDefinitions(content[i].0, content[i].1)
    requires forall j :: i < j < |content| ==> k !in EntryDefinitions(content[j].0, content[j].1)
    ensures k in ContentDefinitions(acc, content)
    ensures ContentDefinitions(acc, content)[k] == EntryDefinitions(content[i].0, content[i].1)[k]
    decreases |content|
  {
    var next := acc + EntryDefinitions(content[0].0, content[0].1);
    if i == 0 {
      assert k in next && next[k] == EntryDefinitions(content[0].0, content[0].1)[k];
      UncontributedKeyKept(next, content[1..], k);
    } else {
      assert content[1..][i - 1] == content[i];
      assert forall j :: i - 1 < j < |content| - 1 ==> content[1..][j] == content[j + 1];
      LastEntryWins(next, content[1..], i - 1, k);
    }
  }

  /** A key no entry contributes keeps the definition it had in `acc`. */
  lemma {:induction false} UncontributedKeyKept(acc: map<string, Definition>, content: Content, k: string)
    requires k in acc
    requires forall j :: 0 <= j < |content| ==> k !in EntryDefinitions(content[j].0, content[j].1)
    ensures k in ContentDefinitions(acc, content) && ContentDefinitions(acc, content)[k] == acc[k]
    decreases |content|
  {
    if |content| > 0 {
      var next := acc + EntryDefinitions(content[0].0, content[0].1);
      assert k !in EntryDefinitions(content[0].0, content[0].1);
      assert forall j :: 0 <= j < |content| - 1 ==> content[1..][j] == content[j + 1];
      UncontributedKeyKept(next, content[1..], k);
    }
  }

  /** A named entry lacking `model` anywhere in the file fails the whole resolution. */
  lemma {:induction false} MissingModelAbortsResolution(acc: map<string, Definition>, content: Content, i: nat)
    requires i < |content|
    requires !IsBatch(content[i].1) && "model" !in content[i].1
    ensures ResolveAll(acc, content).Err?
    decreases |content|
  {
    var first := ResolveEntry(acc, content[0].0, content[0].1);
    if i > 0 && first.Ok? {
      assert content[1..][i - 1] == content[i];
      MissingModelAbortsResolution(first.value, content[1..], i - 1);
    }
  }

  /** Resolves the file: read, check the suffix, resolve every entry. */
  function LoadFixtures(filename: string, parse: string -> Content): (r: Result<map<string, Definition>, Error>)
    ensures r.Ok? ==> Strings.EndsWith(filename, ".yaml")
    ensures r.Ok? ==> r.value.Keys == ContentKeys(parse(filename))
    ensures r.Ok? ==> r.value == ContentDefinitions(map[], parse(filename))
    ensures Strings.EndsWith(filename, ".yaml") && AllResolve(parse(filename)) ==> r.Ok?
  {
    var content :- LoadFile(filename, parse);
    ResolutionSucceeds(map[], content);
    ResolveAll(map[], content)
  }

  /**
   * After a successful load, each key maps to the definition the last
   * entry contributing it gives: its batch object or its named arguments.
   */
  lemma LoadedKeyDefinition(filename: string, parse: string -> Content, content: Content, i: nat, k: string)
    requires parse(filename) == content
    requires LoadFixtures(filename, parse).Ok?
    requires i < |content| && k in EntryDefinitions(content[i].0, content[i].1)
    requires forall j :: i < j < |content| ==> k !in EntryDefinitions(content[j].0, content[j].1)
    ensures var loaded := LoadFixtures(filename, parse).value;
      k in loaded && loaded[k] == EntryDefinitions(content[i].0, content[i].1)[k]
  {
    LastEntryWins(map[], content, i, k);
  }

  /**
   * `load`: stores the configuration, then resolves the file. On success
   * the definitions are replaced and the cache emptied; on failure the
   * configuration is already overwritten but definitions and cache are
   * those of before.
   */
  function Load(m: Manager, filename: string, session: nat, modelsPackage: string,
                parse: string -> Content): (r: Run<()>)
    ensures r.trace == []
    ensures r.state.config == Some(Config(filename, session, modelsPackage))
    ensures r.state.hooks == m.hooks && r.state.nextId == m.nextId
    ensures r.result.Ok? <==> LoadFixtures(filename, parse).Ok?
    ensures r.result.Ok? ==>
      && r.state.fixtures == Some(LoadFixtures(filename, parse).value)
      && r.state.cache == Some(map[])
    ensures r.result.Err? ==> r.state.fixtures == m.fixtures && r.state.cache == m.cache
    ensures Valid(m) ==> Valid(r.state)
  {
    var configured := m.(config := Some(Config(filename, session, modelsPackage)));
    match LoadFixtures(filename, parse)
    case Err(e) => Run(configured, [], Err(e))
    case Ok(defs) => Run(CleanCache(configured.(fixtures := Some(defs))), [], Ok(()))
  }

  /**
   * A named entry without `model` anywhere in a `.yaml` file makes `load`
   * fail after the configuration was stored: the definitions and the
   * cache of before survive.
   */
  lemma LoadMissingModelKeepsState(m: Manager, filename: string, session: nat, modelsPackage: string,
                                   parse: string -> Content, i: nat)
    requires Strings.EndsWith(filename, ".yaml")
    requires i < |parse(filename)|
    requires !IsBatch(parse(filename)[i].1) && "model" !in parse(filename)[i].1
    ensures var r := Load(m, filename, session, modelsPackage, parse);
      && r.result.Err?
      && r.state.config == Some(Config(filename, session, modelsPackage))
      && r.state.fixtures == m.fixtures && r.state.cache == m.cache
  {
    MissingModelAbortsResolution(map[], parse(filename), i);
  }

  /** `clean_cache`: empties the cache and changes nothing else. */
  function CleanCache(m: Manager): (r: Manager)
    ensures r.cache == Some(map[])
    ensures r.config == m.config && r.fixtures == m.fixtures
    ensures r.hooks == m.hooks && r.nextId == m.nextId
  {
    m.(cache := Some(map[]))
  }

  // ---------------------------------------------------------------------
  // The instance cache
  // ---------------------------------------------------------------------

  /** Configuration, definitions and hooks are the same in both states. */
  predicate SameSetup(before: Manager, after: Manager) {
    && after.config == before.config
    && after.fixtures == before.fixtures
    && after.hooks == before.hooks
  }

  /** Every truthy cached instance of `before` is still cached, unchanged, in `after`. */
  ghost predicate KeepsTruthy(before: Manager, after: Manager) {
    before.cache.Some? ==>
      && after.cache.Some?
      && forall k :: k in before.cache.value && before.cache.value[k].truthy ==>
           k in after.cache.value && after.cache.value[k] == before.cache.value[k]
  }

  /** The cached instance for `key`, when it is one the cache would hand out. */
  predicate CachedTruthy(m: Manager, key: string) {
    m.cache.Some? && key in m.cache.value && m.cache.value[key].truthy
  }

  /**
   * `get_fixture`: the cached instance when a truthy one is cached under
   * `key` (whatever `withRels` is), otherwise a newly built instance, which
   * replaces the cache entry. Unknown keys fail and change nothing.
   */
  function GetFixture(m: Manager, build: (Definition, bool) -> Build, key: string, withRels: bool): (r: Run<Instance>)
    ensures r.trace == []
    ensures SameSetup(m, r.state) && KeepsTruthy(m, r.state)
    ensures r.result.Err? ==> r.state == m
    ensures m.fixtures.Some? && key !in m.fixtures.value ==> r == Run(m, [], Err(NoSuchFixture(key)))
    ensures m.fixtures.Some? && key in m.fixtures.value && CachedTruthy(m, key) ==>
      r == Run(m, [], Ok(m.cache.value[key]))
    ensures r.result.Ok? && !CachedTruthy(m, key) ==>
      && m.cache.Some?
      && r.result.value.id == m.nextId
      && r.state.nextId == m.nextId + 1
      && r.state.cache == Some(m.cache.value[key := r.result.value])
    ensures r.result.Ok? ==> m.fixtures.Some? && key in m.fixtures.value
    ensures r.result.Ok? ==> CachedTruthy(r.state, key) == r.result.value.truthy
    ensures r.result.Ok? ==> key in r.state.cache.value && r.state.cache.value[key] == r.result.value
    ensures m.fixtures.Some? && key in m.fixtures.value && m.cache.Some? && !CachedTruthy(m, key) ==>
      var b := build(m.fixtures.value[key], withRels);
      && (r.result.Ok? <==> b.Built?)
      && (b.Built? ==> r.result.value.truthy == b.truthy)
      && (b.Raised? ==> r.result == Err(BuildFailed(key)))
    ensures Valid(m) ==> Valid(r.state)
  {
    if m.fixtures.None? then Run(m, [], Err(NotLoaded))
    else if key !in m.fixtures.value then Run(m, [], Err(NoSuchFixture(key)))
    else if m.cache.None? then Run(m, [], Err(NotLoaded))
    else if CachedTruthy(m, key) then Run(m, [], Ok(m.cache.value[key]))
    else match build(m.fixtures.value[key], withRels)
      case Raised => Run(m, [], Err(BuildFailed(key)))
      case Built(truthy) =>
        var instance := Instance(m.nextId, truthy);
        Run(m.(cache := Some(m.cache.value[key := instance]), nextId := m.nextId + 1), [], Ok(instance))
  }

  /** `get_fixtures`: `get_fixture` for each key in order, stopping at the first failure. */
  function GetFixtures(m: Manager, build: (Definition, bool) -> Build, keys: seq<string>, withRels: bool): (r: Run<seq<Instance>>)
    ensures r.trace == []
    ensures SameSetup(m, r.state) && KeepsTruthy(m, r.state)
    ensures r.result.Ok? ==> |r.result.value| == |keys|
    ensures Valid(m) ==> Valid(r.state)
    decreases |keys|
  {
    if |keys| == 0 then Run(m, [], Ok([]))
    else
      var first := GetFixture(m, build, keys[0], withRels);
      match first.result
      case Err(e) => Run(first.state, [], Err(e))
      case Ok(instance) =>
        var rest := GetFixtures(first.state, build, keys[1..], withRels);
        match rest.result
        case Err(e) => Run(rest.state, [], Err(e))
        case Ok(instances) => Run(rest.state, [], Ok([instance] + instances))
  }

  /**
   * The `i`-th instance `get_fixtures` returns is the one the cache holds
   * for the `i`-th key afterwards, whenever it is truthy: results come
   * back one per key, in key order, and repeated keys share an instance.
   */
  lemma {:induction false} GetFixturesMatchCache(m: Manager, build: (Definition, bool) -> Build,
                                                 keys: seq<string>, withRels: bool)
    requires GetFixtures(m, build, keys, withRels).result.Ok?
    ensures var r := GetFixtures(m, build, keys, withRels);
      forall i :: 0 <= i < |keys| && r.result.value[i].truthy ==>
        r.state.cache.Some? && keys[i] in r.state.cache.value && r.state.cache.value[keys[i]] == r.result.value[i]
    decreases |keys|
  {
    var r := GetFixtures(m, build, keys, withRels);
    if |keys| > 0 {
      var first := GetFixture(m, build, keys[0], withRels);
      var rest := GetFixtures(first.state, build, keys[1..], withRels);
      GetFixturesMatchCache(first.state, build, keys[1..], withRels);
      forall i | 0 <= i < |keys| && r.result.value[i].truthy
        ensures r.state.cache.Some? && keys[i] in r.state.cache.value
        ensures r.state.cache.value[keys[i]] == r.result.value[i]
      {
        if i == 0 {
          assert CachedTruthy(first.state, keys[0]);
        } else {
          assert keys[1..][i - 1] == keys[i];
          assert rest.result.value[i - 1] == r.result.value[i];
        }
      }
    }
  }

  /** `get_fixtures` fails when any key was never resolved. */
  lemma {:induction false} GetFixturesUnknownKey(m: Manager, build: (Definition, bool) -> Build,
                                                 keys: seq<string>, withRels: bool, i: nat)
    requires m.fixtures.Some? && i < |keys| && keys[i] !in m.fixtures.value
    ensures GetFixtures(m, build, keys, withRels).result.Err?
    decreases |keys|
  {
    var first := GetFixture(m, build, keys[0], withRels);
    if i > 0 && first.result.Ok? {
      assert keys[1..][i - 1] == keys[i];
      GetFixturesUnknownKey(first.state, build, keys[1..], withRels, i - 1);
    }
  }

  /** A cached instance that is falsy is not reused: the next call builds a new one. */
  lemma FalsyCachedInstanceIsRebuilt(m: Manager, build: (Definition, bool) -> Build, key: string, withRels: bool)
    requires Valid(m) && m.fixtures.Some? && key in m.fixtures.value
    requires key in m.cache.value && !m.cache.value[key].truthy
    requires build(m.fixtures.value[key], withRels).Built?
    ensures var r := GetFixture(m, build, key, withRels);
      r.result.Ok? && r.result.value != m.cache.value[key]
  {
  }

  /** After `clean_cache` an instance is built again, distinct from every instance cached before. */
  lemma CleanCacheForcesRebuild(m: Manager, build: (Definition, bool) -> Build, key: string, withRels: bool)
    requires Valid(m) && m.fixtures.Some? && key in m.fixtures.value
    requires build(m.fixtures.value[key], withRels).Built?
    ensures var r := GetFixture(CleanCache(m), build, key, withRels);
      && r.result.Ok?
      && forall k :: k in m.cache.value ==> r.result.value != m.cache.value[k]
  {
  }

  // ---------------------------------------------------------------------
  // Hooks
  // ---------------------------------------------------------------------

  /** `_get_hook`: the registered callable, or a no-op when none is registered. */
  function GetHook(hooks: map<string, HookId>, name: string): (h: Hook)
    ensures h.NoOp? <==> name !in hooks
    ensures h.Registered? ==> h.fn == hooks[name]
  {
    if name in hooks then Registered(hooks[name]) else NoOp
  }

  /**
   * `set_hook`: registers `fn` under an allowed name, replacing any
   * earlier callable; any other name fails and changes nothing.
   */
  function SetHook(m: Manager, name: string, fn: HookId): (r: Run<()>)
    ensures r.trace == []
    ensures r.result.Err? <==> name !in AllowedHooks
    ensures r.result.Err? ==> r.state == m && r.result.error == HookNotAllowed(name)
    ensures r.result.Ok? ==> GetHook(r.state.hooks, name) == Registered(fn)
    ensures forall n :: n != name ==> GetHook(r.state.hooks, n) == GetHook(m.hooks, n)
    ensures r.state.config == m.config && r.state.fixtures == m.fixtures
    ensures r.state.cache == m.cache && r.state.nextId == m.nextId
  {
    if name !in AllowedHooks then Run(m, [], Err(HookNotAllowed(name)))
    else Run(m.(hooks := m.hooks[name := fn]), [], Ok(()))
  }

  // ---------------------------------------------------------------------
  // Installation
  // ---------------------------------------------------------------------

  /**
   * The side effects of installing one instance: the `before_install`
   * hook, adding to the session, committing, the `after_install` hook;
   * nothing at all when the instance is not to be saved.
   */
  function InstallEvents(hooks: map<string, HookId>, session: nat, instance: Instance, doNotSave: bool): seq<Event> {
    if doNotSave then []
    else [HookCall("before_install", GetHook(hooks, "before_install"), instance),
          SessionAdd(session, instance),
          SessionCommit(session),
          HookCall("after_install", GetHook(hooks, "after_install"), instance)]
  }

  /** The side effects of installing `instances` one after another. */
  function InstallTrace(hooks: map<string, HookId>, session: nat, instances: seq<Instance>, doNotSave: bool): seq<Event>
    decreases |instances|
  {
    if |instances| == 0 then []
    else InstallEvents(hooks, session, instances[0], doNotSave) + InstallTrace(hooks, session, instances[1..], doNotSave)
  }

  /**
   * `install_fixture`: gets the instance, then, unless it is not to be
   * saved, runs before-install hook, session add, commit and after-install
   * hook in that order.
   */
  function InstallFixture(m: Manager, build: (Definition, bool) -> Build, key: string,
                          doNotSave: bool, withRels: bool): (r: Run<Instance>)
    ensures var got := GetFixture(m, build, key, withRels);
      && r.state == got.state
      && (got.result.Err? ==> r.result == got.result && r.trace == [])
      && (got.result.Ok? && m.config.Some? ==> r.result == got.result)
    ensures doNotSave ==> r.trace == []
    ensures r.result.Ok? && !doNotSave ==> m.config.Some?
    ensures r.result.Ok? && !doNotSave && m.config.Some? ==>
      var i := r.result.value;
      var s := m.config.value.session;
      r.trace == [HookCall("before_install", GetHook(m.hooks, "before_install"), i),
                  SessionAdd(s, i), SessionCommit(s),
                  HookCall("after_install", GetHook(m.hooks, "after_install"), i)]
    ensures r.result.Ok? && m.config.Some? ==> r.trace == InstallEvents(m.hooks, m.config.value.session, r.result.value, doNotSave)
    ensures SameSetup(m, r.state) && KeepsTruthy(m, r.state)
    ensures Valid(m) ==> Valid(r.state)
  {
    var got := GetFixture(m, build, key, withRels);
    match got.result
    case Err(e) => Run(got.state, [], Err(e))
    case Ok(instance) =>
      if doNotSave then Run(got.state, [], Ok(instance))
      else match m.config
        case None =>
          Run(got.state, [HookCall("before_install", GetHook(m.hooks, "before_install"), instance)], Err(NotLoaded))
        case Some(config) =>
          Run(got.state, InstallEvents(m.hooks, config.session, instance, false), Ok(instance))
  }

  /** `install_fixtures` accepts a single key as a one-key sequence. */
  function Normalize(arg: KeyArg): (keys: seq<string>)
    ensures arg.SingleKey? ==> keys == [arg.key]
    ensures arg.KeySequence? ==> keys == arg.keys
  {
    match arg
    case SingleKey(key) => [key]
    case KeySequence(keys) => keys
  }

  /** Installs keys in order; a failure stops there, and what was installed before stays installed. */
  function InstallEach(m: Manager, build: (Definition, bool) -> Build, keys: seq<string>,
                       doNotSave: bool, withRels: bool): (r: Run<seq<Instance>>)
    ensures r.result.Ok? ==> |r.result.value| == |keys|
    ensures r.result.Ok? && |keys| > 0 && !doNotSave ==> m.config.Some?
    ensures r.result.Ok? && m.config.Some? ==>
      r.trace == InstallTrace(m.hooks, m.config.value.session, r.result.value, doNotSave)
    ensures doNotSave ==> r.trace == []
    ensures m.config.Some? ==>
      var got := GetFixtures(m, build, keys, withRels);
      r.state == got.state && r.result == got.result
    ensures SameSetup(m, r.state) && KeepsTruthy(m, r.state)
    ensures Valid(m) ==> Valid(r.state)
    decreases |keys|
  {
    if |keys| == 0 then Run(m, [], Ok([]))
    else
      var first := InstallFixture(m, build, keys[0], doNotSave, withRels);
      match first.result
      case Err(e) => Run(first.state, first.trace, Err(e))
      case Ok(instance) =>
        var rest := InstallEach(first.state, build, keys[1..], doNotSave, withRels);
        Run(rest.state, first.trace + rest.trace,
            match rest.result
            case Ok(instances) => Ok([instance] + instances)
            case Err(e) => Err(e))
  }

  /**
   * `install_fixtures` returns the instances in key order: each truthy
   * `i`-th result is the instance cached for the `i`-th key afterwards.
   */
  lemma InstallFixturesInKeyOrder(m: Manager, build: (Definition, bool) -> Build, arg: KeyArg,
                                  doNotSave: bool, withRels: bool)
    requires m.config.Some?
    requires InstallFixtures(m, build, arg, doNotSave, withRels).result.Ok?
    ensures var r := InstallFixtures(m, build, arg, doNotSave, withRels);
      var keys := Normalize(arg);
      forall i :: 0 <= i < |keys| && r.result.value[i].truthy ==>
        r.state.cache.Some? && keys[i] in r.state.cache.value && r.state.cache.value[keys[i]] == r.result.value[i]
  {
    GetFixturesMatchCache(m, build, Normalize(arg), withRels);
  }

  /** `install_fixtures`: a single key is installed as a one-key sequence. */
  function InstallFixtures(m: Manager, build: (Definition, bool) -> Build, arg: KeyArg,
                           doNotSave: bool, withRels: bool): (r: Run<seq<Instance>>)
    ensures r.result.Ok? ==> |r.result.value| == |Normalize(arg)|
    ensures r.result.Ok? && m.config.Some? ==>
      r.trace == InstallTrace(m.hooks, m.config.value.session, r.result.value, doNotSave)
    ensures m.config.Some? ==>
      var got := GetFixtures(m, build, Normalize(arg), withRels);
      r.state == got.state && r.result == got.result
    ensures SameSetup(m, r.state) && KeepsTruthy(m, r.state)
    ensures Valid(m) ==> Valid(r.state)
  {
    InstallEach(m, build, Normalize(arg), doNotSave, withRels)
  }

  /** Installing a single key gives the one-element list of what `install_fixture` gives. */
  lemma InstallSingleKey(m: Manager, build: (Definition, bool) -> Build, key: string,
                         doNotSave: bool, withRels: bool)
    ensures var many := InstallFixtures(m, build, SingleKey(key), doNotSave, withRels);
      var one := InstallFixture(m, build, key, doNotSave, withRels);
      && many.state == one.state && many.trace == one.trace
      && (many.result.Ok? <==> one.result.Ok?)
      && (one.result.Ok? ==> many.result.value == [one.result.value])
  {
    var keys := [key];
    assert keys[1..] == [];
    assert Normalize(SingleKey(key)) == keys;
    var one := InstallFixture(m, build, key, doNotSave, withRels);
    if one.result.Ok? {
      var rest := InstallEach(one.state, build, keys[1..], doNotSave, withRels);
      assert rest == Run(one.state, [], Ok([]));
      assert one.trace + rest.trace == one.trace;
    }
  }

  /**
   * No rollback: when the first key installs and a later one fails, the
   * side effects of the first installation stay at the head of the trace.
   */
  lemma InstallEachKeepsEarlierEffects(m: Manager, build: (Definition, bool) -> Build, keys: seq<string>,
                                       doNotSave: bool, withRels: bool)
    requires |keys| > 0
    requires InstallFixture(m, build, keys[0], doNotSave, withRels).result.Ok?
    ensures var first := InstallFixture(m, build, keys[0], doNotSave, withRels);
      var r := InstallEach(m, build, keys, doNotSave, withRels);
      first.trace <= r.trace
  {
  }

  /** On a valid, loaded manager whose records always build, installing resolved keys succeeds. */
  lemma {:induction false} InstallEachSucceeds(m: Manager, build: (Definition, bool) -> Build, keys: seq<string>,
                                               doNotSave: bool, withRels: bool)
    requires Valid(m) && m.fixtures.Some?
    requires forall i :: 0 <= i < |keys| ==> keys[i] in m.fixtures.value
    requires forall d, b :: build(d, b).Built?
    ensures InstallEach(m, build, keys, doNotSave, withRels).result.Ok?
    decreases |keys|
  {
    if |keys| > 0 {
      var first := InstallFixture(m, build, keys[0], doNotSave, withRels);
      assert first.result.Ok?;
      assert forall i :: 0 <= i < |keys| - 1 ==> keys[1..][i] == keys[i + 1];
      InstallEachSucceeds(first.state, build, keys[1..], doNotSave, withRels);
    }
  }

  /**
   * `install_all_fixtures`: installs every resolved key, in the order the
   * definitions mapping yields its keys (returned as `order`), so one
   * instance comes back per resolved key.
   */
  method InstallAllFixtures(m: Manager, build: (Definition, bool) -> Build, doNotSave: bool, withRels: bool)
    returns (order: seq<string>, r: Run<seq<Instance>>)
    ensures m.fixtures.None? ==> r == Run(m, [], Err(NotLoaded))
    ensures m.fixtures.Some? ==> IsEnumeration(order, m.fixtures.value.Keys)
    ensures m.fixtures.Some? ==> |order| == |m.fixtures.value|
    ensures m.fixtures.Some? ==> r == InstallEach(m, build, order, doNotSave, withRels)
    ensures r.result.Ok? ==> m.fixtures.Some? && |r.result.value| == |m.fixtures.value|
  {
    if m.fixtures.None? {
      return [], Run(m, [], Err(NotLoaded));
    }
    var keys := m.fixtures.value.Keys;
    var remaining := keys;
    order := [];
    while remaining != {}
      invariant remaining <= keys
      invariant forall i, j :: 0 <= i < j < |order| ==> order[i] != order[j]
      invariant forall k :: k in order <==> k in keys && k !in remaining
      invariant |order| + |remaining| == |keys|
      decreases remaining
    {
      var k :| k in remaining;
      order := order + [k];
      remaining := remaining - {k};
    }
    assert |keys| == |m.fixtures.value|;
    r := InstallEach(m, build, order, doNotSave, withRels);
  }

  // ---------------------------------------------------------------------
  // Memoisation across operations
  // ---------------------------------------------------------------------

  /** The manager operations, as a test run would call them. */
  datatype Op =
    | GetOp(key: string, withRels: bool)
    | GetManyOp(keys: seq<string>, withRels: bool)
    | InstallOp(key: string, doNotSave: bool, withRels: bool)
    | InstallManyOp(arg: KeyArg, doNotSave: bool, withRels: bool)
    | SetHookOp(name: string, fn: HookId)
    | CleanCacheOp
    | LoadOp(filename: string, session: nat, modelsPackage: string)

  /** The state after one operation, whether it succeeded or raised. */
  function Apply(m: Manager, build: (Definition, bool) -> Build, parse: string -> Content, op: Op): Manager {
    match op
    case GetOp(key, withRels) => GetFixture(m, build, key, withRels).state
    case GetManyOp(keys, withRels) => GetFixtures(m, build, keys, withRels).state
    case InstallOp(key, doNotSave, withRels) => InstallFixture(m, build, key, doNotSave, withRels).state
    case InstallManyOp(arg, doNotSave, withRels) => InstallFixtures(m, build, arg, doNotSave, withRels).state
    case SetHookOp(name, fn) => SetHook(m, name, fn).state
    case CleanCacheOp => CleanCache(m)
    case LoadOp(filename, session, modelsPackage) => Load(m, filename, session, modelsPackage, parse).state
  }

  /** The state after a sequence of operations. */
  function ApplyAll(m: Manager, build: (Definition, bool) -> Build, parse: string -> Content, ops: seq<Op>): Manager
    decreases |ops|
  {
    if |ops| == 0 then m else ApplyAll(Apply(m, build, parse, ops[0]), build, parse, ops[1..])
  }

  /** Operations other than `load` and `clean_cache` keep every truthy cached instance and the definitions. */
  lemma {:induction false} OpsKeepCache(m: Manager, build: (Definition, bool) -> Build, parse: string -> Content, ops: seq<Op>)
    requires forall i :: 0 <= i < |ops| ==> !ops[i].CleanCacheOp? && !ops[i].LoadOp?
    ensures var s := ApplyAll(m, build, parse, ops);
      KeepsTruthy(m, s) && s.fixtures == m.fixtures
    decreases |ops|
  {
    if |ops| > 0 {
      var next := Apply(m, build, parse, ops[0]);
      assert KeepsTruthy(m, next) && next.fixtures == m.fixtures;
      assert forall i :: 0 <= i < |ops| - 1 ==> ops[1..][i] == ops[i + 1];
      OpsKeepCache(next, build, parse, ops[1..]);
    }
  }

  /** Whatever operations run, only the allowed names ever hold a hook. */
  lemma {:induction false} OpsKeepAllowedHooks(m: Manager, build: (Definition, bool) -> Build,
                                               parse: string -> Content, ops: seq<Op>)
    requires m.hooks.Keys <= AllowedHooks
    ensures ApplyAll(m, build, parse, ops).hooks.Keys <= AllowedHooks
    decreases |ops|
  {
    if |ops| > 0 {
      var next := Apply(m, build, parse, ops[0]);
      if ops[0].SetHookOp? {
        var name := ops[0].name;
        assert next.hooks.Keys <= m.hooks.Keys + {name};
        assert name !in AllowedHooks ==> next.hooks == m.hooks;
      }
      assert next.hooks.Keys <= AllowedHooks;
      OpsKeepAllowedHooks(next, build, parse, ops[1..]);
    }
  }

  /**
   * Memoisation: once `get_fixture` has cached a truthy instance, any
   * operations that neither load nor clean the cache leave a later
   * `get_fixture` of that key returning the same instance, whatever the
   * `withRels` flag of either call.
   */
  lemma CachedInstanceIsReused(m: Manager, build: (Definition, bool) -> Build, parse: string -> Content,
                               key: string, withRels: bool, ops: seq<Op>, laterWithRels: bool)
    requires GetFixture(m, build, key, withRels).result.Ok?
    requires GetFixture(m, build, key, withRels).result.value.truthy
    requires forall i :: 0 <= i < |ops| ==> !ops[i].CleanCacheOp? && !ops[i].LoadOp?
    ensures var first := GetFixture(m, build, key, withRels);
      var s := ApplyAll(first.state, build, parse, ops);
      GetFixture(s, build, key, laterWithRels) == Run(s, [], Ok(first.result.value))
  {
    var first := GetFixture(m, build, key, withRels);
    OpsKeepCache(first.state, build, parse, ops);
  }

  /** Resolving a named entry followed by a batch entry. */
  lemma ResolveNamedThenBatch(name: string, v: RawEntry, batch: string, w: RawEntry)
    requires !IsBatch(v) && "model" in v && "id" !in v && "key" !in v && "fixture_manager" !in v
    requires IsBatch(w) && "model" in w && w["objects"].List? && |w["objects"].items| > 0
    requires name !in BatchKeys(batch, |w["objects"].items|)
    ensures var r := ResolveAll(map[], [(name, v), (batch, w)]);
      && r.Ok?
      && r.value.Keys == {name} + BatchKeys(batch, |w["objects"].items|)
      && r.value[name] == Definition(name, v)
      && forall i :: 0 <= i < |w["objects"].items| ==>
           r.value[BatchKey(batch, i)] == Definition(BatchKey(batch, i), BatchArgs(w["model"], w["objects"].items[i]))
  {
    var content := [(name, v), (batch, w)];
    var first := ResolveEntry(map[], name, v);
    assert first == Ok(map[name := Definition(name, v)]);
    var second := ResolveEntry(first.value, batch, w);
    assert content[1..][1..] == [];
    assert ResolveAll(map[], content) == ResolveAll(first.value, content[1..]);
    assert ResolveAll(first.value, content[1..]) == second;
  }

  /** The keys the two-object batch named `group` produces. */
  lemma GroupKeys()
    ensures BatchKey("group", 0) == "group_0" && BatchKey("group", 1) == "group_1"
    ensures BatchKeys("group", 2) == {"group_0", "group_1"}
  {
    assert Strings.NatToString(0) == "0" && Strings.NatToString(1) == "1";
    BatchKeysExtend("group", 0);
    BatchKeysExtend("group", 1);
    assert BatchKeys("group", 0) == {};
  }

  /** A file with one named entry and a batch of two objects. */
  lemma ExampleResolution(parse: string -> Content)
    requires parse("fixtures.yaml") == [
      ("simple", map["model" := Str("M"),
                     "fields" := Dict(map["field1" := Str("lolin"), "field2" := Int(2)])]),
      ("group", map["model" := Str("M"),
                    "objects" := List([Dict(map["a" := Int(1)]), Dict(map["a" := Int(2)])])])]
    ensures var r := LoadFixtures("fixtures.yaml", parse);
      && r.Ok?
      && r.value.Keys == {"simple", "group_0", "group_1"}
      && "fields" in r.value["simple"].args
      && r.value["simple"].args["fields"] == Dict(map["field1" := Str("lolin"), "field2" := Int(2)])
      && "fields" in r.value["group_1"].args && r.value["group_1"].args["fields"] == Dict(map["a" := Int(2)])
  {
    var content := parse("fixtures.yaml");
    assert Strings.EndsWith("fixtures.yaml", ".yaml");
    GroupKeys();
    ResolveNamedThenBatch("simple", content[0].1, "group", content[1].1);
  }
}

=== FILE: results.dfy ===
/** Failure-compatible wrappers shared by the rest of the model. */
module Results {

  /** An optional value; Python's `None` versus a present value. */
  datatype Option<+T> = None | Some(value: T)

  /** Either a value or the exception the source would raise instead. */
  datatype Result<+T, +E> = Ok(value: T) | Err(error: E) {

    predicate IsFailure() {
      Err?
    }

    function PropagateFailure<U>(): Result<U, E>
      requires Err?
    {
      Err(error)
    }

    function Extract(): T
      requires Ok?
    {
      value
    }
  }
}

=== FILE: strings.dfy ===
/**
 * The handful of Python string operations the fixture loader relies on:
 * `str(i)` for a non-negative index, `str.split(sep)`, `str.endswith`
 * and `str.lower`.
 */
module Strings {

  predicate IsDigit(c: char) {
    '0' <= c <= '9'
  }

  predicate AllDigits(s: string) {
    forall i :: 0 <= i < |s| ==> IsDigit(s[i])
  }

  function DigitChar(d: nat): (c: char)
    requires d < 10
    ensures IsDigit(c)
  {
    (48 + d) as char
  }

  function DigitValue(c: char): (d: nat)
    requires IsDigit(c)
    ensures d < 10
  {
    c as int - 48
  }

  /** Python's `str(n)` for a natural number: decimal, no leading zero. */
  function NatToString(n: nat): (s: string)
    ensures |s| >= 1
    ensures AllDigits(s)
    ensures |s| > 1 ==> s[0] != '0'
    decreases n
  {
    if n < 10 then [DigitChar(n)] else NatToString(n / 10) + [DigitChar(n % 10)]
  }

  /** Reads a string of decimal digits back as a number. */
  function ParseDecimal(s: string): nat
    requires AllDigits(s)
    decreases |s|
  {
    if |s| == 0 then 0 else 10 * ParseDecimal(s[..|s| - 1]) + DigitValue(s[|s| - 1])
  }

  /** Decimal rendering round-trips through parsing. */
  lemma {:induction false} ParseNatToString(n: nat)
    ensures ParseDecimal(NatToString(n)) == n
    decreases n
  {
    var s := NatToString(n);
    if n < 10 {
      assert s[..|s| - 1] == [];
    } else {
      ParseNatToString(n / 10);
      assert s[..|s| - 1] == NatToString(n / 10);
    }
  }

  /** Distinct numbers render as distinct strings. */
  lemma NatToStringInjective(a: nat, b: nat)
    requires NatToString(a) == NatToString(b)
    ensures a == b
  {
    ParseNatToString(a);
    ParseNatToString(b);
  }

  /** Python's `s.endswith(suffix)`. */
  predicate EndsWith(s: string, suffix: string) {
    |suffix| <= |s| && s[|s| - |suffix|..] == suffix
  }

  /** Number of occurrences of `c` in `s`. */
  function Count(s: string, c: char): nat {
    if |s| == 0 then 0 else (if s[0] == c then 1 else 0) + Count(s[1..], c)
  }

  /** Python's `s.split(sep)` for a one-character separator. */
  function Split(s: string, sep: char): (parts: seq<string>)
    ensures |parts| == Count(s, sep) + 1
    ensures forall i :: 0 <= i < |parts| ==> sep !in parts[i]
    ensures sep !in s ==> parts == [s]
    decreases |s|
  {
    if |s| == 0 then [""]
    else
      var rest := Split(s[1..], sep);
      if s[0] == sep then [""] + rest
      else
        assert [s[0]] + s[1..] == s;
        [[s[0]] + rest[0]] + rest[1..]
  }

  /** Python's `sep.join(parts)`. */
  function Join(parts: seq<string>, sep: char): string
    requires |parts| >= 1
    decreases |parts|
  {
    if |parts| == 1 then parts[0] else parts[0] + [sep] + Join(parts[1..], sep)
  }

  lemma CountZero(s: string, c: char)
    ensures Count(s, c) == 0 <==> c !in s
  {
  }

  /** Joining the pieces of a split gives back the original string. */
  lemma {:induction false} JoinSplit(s: string, sep: char)
    ensures Join(Split(s, sep), sep) == s
    decreases |s|
  {
    if |s| != 0 {
      var rest := Split(s[1..], sep);
      JoinSplit(s[1..], sep);
      if s[0] == sep {
        assert Split(s, sep) == [""] + rest;
        assert s == [sep] + s[1..];
      } else if |rest| == 1 {
        assert Split(s, sep) == [[s[0]] + rest[0]];
        assert s == [s[0]] + s[1..];
      } else {
        var parts := Split(s, sep);
        assert parts == [[s[0]] + rest[0]] + rest[1..];
        assert parts[1..] == rest[1..];
        assert Join(rest, sep) == rest[0] + [sep] + Join(rest[1..], sep);
        assert s == [s[0]] + s[1..];
      }
    }
  }

  /** Splitting a piece free of the separator followed by more text. */
  lemma {:induction false} SplitPrefix(p: string, sep: char, r: string)
    requires sep !in p
    ensures Split(p + [sep] + r, sep) == [p] + Split(r, sep)
    decreases |p|
  {
    var x := p + [sep] + r;
    if |p| == 0 {
      assert x[0] == sep && x[1..] == r;
    } else {
      assert x[0] == p[0] && x[1..] == p[1..] + [sep] + r;
      SplitPrefix(p[1..], sep, r);
      assert [p[0]] + p[1..] == p;
    }
  }

  /** Splitting a join of separator-free pieces gives back the pieces. */
  lemma {:induction false} SplitJoin(parts: seq<string>, sep: char)
    requires |parts| >= 1
    requires forall i :: 0 <= i < |parts| ==> sep !in parts[i]
    ensures Split(Join(parts, sep), sep) == parts
    decreases |parts|
  {
    if |parts| > 1 {
      SplitJoin(parts[1..], sep);
      SplitPrefix(parts[0], sep, Join(parts[1..], sep));
      assert [parts[0]] + parts[1..] == parts;
    }
  }

  /** A join of two or more pieces starts with the first two pieces and the separator between them. */
  lemma JoinPrefix(parts: seq<string>, sep: char)
    requires |parts| >= 2
    ensures |parts[0]| + 1 + |parts[1]| <= |Join(parts, sep)|
    ensures Join(parts, sep)[..|parts[0]| + 1 + |parts[1]|] == parts[0] + [sep] + parts[1]
    ensures |parts| == 2 ==> Join(parts, sep) == parts[0] + [sep] + parts[1]
    ensures |parts| > 2 ==> |parts[0]| + 1 + |parts[1]| < |Join(parts, sep)|
    ensures |parts| > 2 ==> Join(parts, sep)[|parts[0]| + 1 + |parts[1]|] == sep
  {
    var tail := Join(parts[1..], sep);
    assert parts[1..][0] == parts[1];
    if |parts| == 2 {
      assert tail == parts[1];
    } else {
      assert tail == parts[1] + [sep] + Join(parts[2..], sep) by {
        assert parts[1..][1..] == parts[2..];
      }
    }
    var whole := Join(parts, sep);
    assert whole == parts[0] + [sep] + tail;
    assert whole[..|parts[0]| + 1 + |parts[1]|] == parts[0] + [sep] + parts[1];
    if |parts| > 2 {
      assert tail[|parts[1]|] == sep;
      assert whole[|parts[0]| + 1 + |parts[1]|] == tail[|parts[1]|];
    }
  }

  function LowerChar(c: char): char {
    if 'A' <= c <= 'Z' then (c as int + 32) as char else c
  }

  /** Python's `s.lower()`, restricted to ASCII letters. */
  function Lower(s: string): (r: string)
    ensures |r| == |s|
    ensures forall i :: 0 <= i < |s| ==> r[i] == LowerChar(s[i])
  {
    seq(|s|, i requires 0 <= i < |s| => LowerChar(s[i]))
  }
}

=== FILE: values.dfy ===
/**
 * The dynamically typed values a parsed fixture file carries, and the
 * Python truthiness rules the loader branches on.
 */
module Values {
  import opened Results

  /**
   * One field value. `Token` is a `!rel` relationship token (a string
   * subclass naming another fixture, possibly with a `.attr` suffix);
   * `Thunk` is a callable field value, described by the value calling it
   * yields; `Object` is an instance built from a model class, known only
   * by its identity.
   */
  datatype Value =
    | Null
    | Bool(b: bool)
    | Int(i: int)
    | Str(s: string)
    | Token(name: string)
    | Thunk(result: Value)
    | List(items: seq<Value>)
    | Dict(entries: map<string, Value>)
    | Object(id: nat)

  /** Python's `bool(v)`: empty strings, collections, zero, False and None are false. */
  predicate Truthy(v: Value) {
    match v
    case Null => false
    case Bool(b) => b
    case Int(i) => i != 0
    case Str(s) => |s| > 0
    case Token(name) => |name| > 0
    case Thunk(_) => true
    case List(items) => |items| > 0
    case Dict(entries) => |entries| > 0
    case Object(_) => true
  }

  /** The text of a value that is a Python string (tokens are strings too). */
  function AsString(v: Value): (r: Option<string>)
    ensures r.Some? <==> (v.Str? || v.Token?)
    ensures v.Str? ==> r == Some(v.s)
    ensures v.Token? ==> r == Some(v.name)
  {
    match v
    case Str(s) => Some(s)
    case Token(name) => Some(name)
    case _ => None
  }

  /** `value()` when `callable(value)`, the value itself otherwise. */
  function Force(v: Value): Value {
    if v.Thunk? then v.result else v
  }

  /**
   * `order` lists every key of a mapping exactly once: one possible
   * iteration order of the mapping.
   */
  ghost predicate IsEnumeration(order: seq<string>, keys: set<string>) {
    && (forall i, j :: 0 <= i < j < |order| ==> order[i] != order[j])
    && (forall k :: k in order <==> k in keys)
  }
}
